=== FILE: README.md ===
# ica-mapping in Dafny

A model of the core of ica-mapping. It is a tool that matches the independent
components (ICs) of an fMRI ICA decomposition to resting-state network
templates (RSNs).

The model covers two parts:

- **The matching engine (`mapper.py`).**
  - Volume preparation (`prep_tmap`).
  - The correlation table of every component against every template
    (`spatial_correlations`).
  - The stable descending ranking of a component's row (`get_top_matches`).
  - The automatic assignment of confident matches (`assign_matches`).
  - The top-three table (`find_top3`).
  - The voxel of largest overlap, in world coordinates (`find_max_coords`).
- **The mapping bookkeeping of the GUI controller (`gui/ica_mapping_gui.py`).**
  - The `gd['mapped']` dict and the list of mapped items.
  - The duplicate flags (`update_duplicate_mappings`).
  - Adding or overwriting a mapping (`add_mapped_network`), and reading the
    new item back (`update_mapping`).
  - Merging the automatic matches after an analysis (`run_analysis`).
  - The `"ica > rsn"` display names and their splitting.
  - The image and name lists the engine is fed (`get_imgobjects`,
    `get_imgobjNames`, `get_guiitem`).
  - The scan that moves the selection to the next unmapped component.

Python dicts are modelled as insertion-ordered association lists
(`Assoc.Dict`). Exceptions are modelled as `Result` failures. The library
calls are parameters bundled in `Mapper.Oracles`:

- `np.corrcoef`;
- the resampling of a template onto a component's grid;
- the sample standard deviation.

The Qt list widgets are modelled by their row labels. These equal the
texts the lists show until an analysis has decorated the template rows with
their scores (see "## Left out"). A mapped item is modelled by its index in
creation order.

Modules, in dependency order:

- `Wrappers`: `Option`, `Result`.
- `Assoc`: dicts.
- `Vectors`: flat arrays, sums, `argmax`.
- `Volumes`: the voxel grid, `unravel_index`, `apply_affine`.
- `Prep`: `prep_tmap`.
- `Ranking`: the stable sort and slice.
- `Mapper`: the engine.
- `Overlap`: `find_max_coords`.
- `Naming`: display names.
- `Mappings`: the GUI state and its updates.
- `Scan`: the next-unmapped scan.

## Model

| member | source | states |
|---|---|---|
| Prep.Center | mapper.py:82-83 | Zero entries stay zero. Nonzero entries keep their pairwise differences. The result sums to zero, i.e. the mean of the nonzero entries was removed. |
| Prep.Scale | mapper.py:84-85 | Multiplying each result entry by the divisor gives back the input. An entry is zero exactly when it was zero. |
| Prep.Binarize | mapper.py:86-89 | For a threshold up to 1, every entry becomes 0 or 1, and 1 exactly when it reached the threshold. Above 1, the second assignment also zeroes the ones written by the first, so everything becomes 0. |
| Prep.Truncate | mapper.py:90-91 | Entries below the threshold become 0. The others are kept unchanged. |
| Prep.Standardize | mapper.py:82-85 | Zeros are preserved. With neither centring nor scaling, the array is unchanged. |
| Prep.PrepArray | mapper.py:82-92 | Without a truthy threshold, the result is the standardized array. With `binary` and a threshold up to 1, it is a 0/1 mask of the entries reaching the threshold; above 1 every entry becomes 0. Otherwise the entries below the threshold are zeroed. |
| Prep.SourceImage | mapper.py:72-77 | Succeeds exactly when an image or a reference is given. A given image is used itself. |
| Prep.PrepVolume | mapper.py:71-92 | Succeeds exactly when an image or a reference is given. With a reference, the image (or the reference itself) is resampled onto the reference grid, giving one value per reference voxel. Without one, the image's own values are used. Either way the array is then prepared as `Prep.PrepArray` states. |
| Vectors.ShiftByMeanSum | mapper.py:83 | Shifting the nonzero entries by their own mean leaves a zero sum. |
| Vectors.ArgMax | mapper.py:126 | Returns an index holding the largest entry, with every earlier entry strictly smaller (the first occurrence). |
| Vectors.ArgMaxUnique | mapper.py:126 | A strictly largest entry is the one `argmax` reports. |
| Volumes.Unravel | mapper.py:128 | `unravel_index` of an in-range flat index is an in-bounds voxel that flattens back to that index. |
| Volumes.UnravelRavel | mapper.py:128 | Flattening an in-bounds voxel and unravelling the result gives back the voxel. |
| Volumes.RavelInBounds | mapper.py:126-128 | Every in-bounds voxel flattens to a position inside the array. |
| Volumes.ApplyAffine | mapper.py:129 | Under the identity affine, world coordinates are the voxel indices. |
| Assoc.Get | mapper.py:45 | `d[k]` is defined exactly for the keys of `d`. It is an item of `d`. With distinct keys, it is the value stored under `k`. |
| Assoc.Put | mapper.py:57 | After `d[k] = v`, `k` maps to `v` and every other key maps as before. An existing key is overwritten in place; a new key is appended. Distinct keys stay distinct. |
| Assoc.PutAll | mapper.py:66 | `dict(pairs)` has the keys of the pairs, and distinct keys stay distinct. |
| Assoc.PutAllLast | mapper.py:66 | Last write wins: a key is bound to the value of its last occurrence. |
| Assoc.PutAllUntouched | mapper.py:66 | A key that is never assigned keeps its old value. |
| Assoc.PutAllUnique | mapper.py:66 | `dict` of a list without repeated keys is that list, in the same order. |
| Assoc.PutAllValues | mapper.py:66 | Every item of the result was already in the dict or is one of the pairs. |
| Ranking.Insert | mapper.py:47 | Inserting into a sorted list keeps it sorted by descending score. The result is the old items plus the new one, as a multiset. |
| Ranking.InsertStable | mapper.py:47 | Insertion keeps the items of each score in their original order, with the new item first. |
| Ranking.SortDesc | mapper.py:47 | `sort(key=score, reverse=True)` returns a permutation of the row. It is non-increasing by score, and stable: items with equal scores keep their relative order. |
| Ranking.SliceLength | mapper.py:49 | Gives the length of `xs[0:n]` under Python slicing, including a negative `n`, which counts from the end. |
| Ranking.Truncate | mapper.py:48-49 | The result is a prefix of the list. It has the slice's length when `num_matches` is an int, and is the whole list otherwise. |
| Ranking.TopK | mapper.py:44-50 | The top `k` are `min(k, \|row\|)` items of the row in non-increasing order, and no item left out scores above one that is kept. |
| Ranking.SortedHead | mapper.py:47 | The head of the ranking is the first item of the row with the highest score. |
| Ranking.HeadScore | mapper.py:47 | The head of the ranking carries the highest score of the row. |
| Ranking.SortedRunnerUp | mapper.py:56 | The second item of the ranking is another item of the row. It scores at least as much as every item other than the head. |
| Ranking.BestKey | gui/ica_mapping_gui.py:222 | Defined exactly for a nonempty row. The key is that of the first item with the row's highest score. |
| Ranking.BestKeyIsHead | gui/ica_mapping_gui.py:222 | The first key with the maximal value is the key of the first highest-scoring item, and also the key at the head of the ranking. |
| Mapper.InputArray | mapper.py:102 | A prepared component has one value per voxel, and each value is 0 or at least 1. |
| Mapper.InputArrayIsPrep | mapper.py:102 | The component array is `prep_tmap` called with the options `spatial_correlations` passes. |
| Mapper.TemplateArray | mapper.py:104 | A prepared template has one value per voxel of the component. It is a 0/1 mask of the resampled values that reach the default threshold of 0.2. |
| Mapper.Tabulate | mapper.py:100-104 | The dict built by the loop has distinct keys: exactly the names of the visited indices. |
| Mapper.TabulateLast | mapper.py:100-104 | A name is bound to the value computed at its last occurrence. |
| Mapper.CorrelationRow | mapper.py:103-104 | A component's row has distinct keys: exactly the template names paired with a template image. |
| Mapper.SpatialCorrelations | mapper.py:95-105 | The table raises exactly when a name list is shorter than its image list (the templates only matter if there are components). Its keys are the names of the components, and each row's keys are the template names. |
| Mapper.SpatialCorrelationsCell | mapper.py:100-104 | With names not repeated later, each cell holds the correlation of that component with that template. |
| Mapper.RowOf | mapper.py:45 | `self.corr[name]` succeeds exactly when the name has a row, and then it is that row. |
| Mapper.TopMatches | mapper.py:44-50 | `get_top_matches` succeeds exactly when the component has a row. It returns the stable descending ranking, sliced to `num_matches`. |
| Mapper.AssignOne | mapper.py:55-59 | A component without a row raises. |
| Mapper.AssignmentRule | mapper.py:55-59 | With two or more templates, a component is matched to the first best template exactly when the best score reaches the minimum and is at least twice every other score. Otherwise it gets `null_network`. |
| Mapper.AssignmentNeedsTwo | mapper.py:55-56 | With no template, `top_corrs[0]` raises. With one template, `top_corrs[1]` raises exactly when the only score reaches the minimum. |
| Mapper.Fill | mapper.py:54-59 | The loop succeeds exactly when every step does. Each name is bound to its computed value, other keys are unchanged, and a failure is the error of one of the names. |
| Mapper.AssignMatches | mapper.py:52-60 | `assign_matches` succeeds exactly when every component does. Each component then maps to its decision, and earlier entries for other names are kept. |
| Mapper.Top3Of | mapper.py:66 | A component's top-three dict exists exactly when the component has a row. |
| Mapper.FindTop3 | mapper.py:62-68 | `find_top3` succeeds exactly when every component has a row. It builds a fresh dict keyed by exactly the component names, each mapped to its top three. |
| Mapper.Top3Entry | mapper.py:66 | With distinct template names, the top three are at most three items of the row with their exact scores. They are in non-increasing order, and no template left out scores above one kept. |
| Mapper.RankedUniqueKeys | mapper.py:47-49 | Ranking and slicing a row with distinct template names keeps them distinct. |
| Mapper.SortDescUniqueKeys | mapper.py:47 | Sorting keeps distinct template names distinct. |
| Overlap.KeepNames | mapper.py:115 | The kept names are names of the list that are in `top3`. |
| Overlap.KeepAt | mapper.py:114-115 | The filtered images and the filtered names stay aligned. An image whose name is kept sits at the same position in both results as its name. |
| Overlap.KeepLength | mapper.py:114-115 | As many images are kept as names among the first `\|imgs\|`, and no more than the names kept in all. |
| Overlap.KeepDistinct | mapper.py:115 | Filtering keeps distinct names distinct. |
| Overlap.OverlapArray | mapper.py:125-126 | The product of the two prepared arrays has one value per voxel of the component. |
| Overlap.MaxVoxel | mapper.py:126-128 | The voxel found is in bounds and has the largest overlap. Every voxel earlier in C order has a strictly smaller overlap. |
| Overlap.MaxVoxelUnique | mapper.py:126-128 | A voxel whose overlap beats every other voxel is the one found. |
| Overlap.MaxPoint | mapper.py:129 | Under the identity affine, the point is the voxel of largest overlap. |
| Overlap.PairRow | mapper.py:124-129 | The inner loop raises only for an empty image with templates, or when names are short. Its keys are the names paired with a template. |
| Overlap.CoordRow | mapper.py:117-129 | With a selecting `top3`, the row covers only templates listed for that component. Without one, it covers template names. |
| Overlap.Visited | mapper.py:113-115 | Only images of the input are visited. |
| Overlap.VisitRows | mapper.py:116-129 | A component visited past the end of the name list raises `IndexError`. |
| Overlap.FindMaxCoords | mapper.py:107-130 | More components than names raises. The result has distinct keys, all of them component names. |
| Overlap.PairRowCell | mapper.py:124-129 | With distinct names, each template of a successful row maps to its max-overlap point. |
| Overlap.CoordRowCell | mapper.py:117-129 | Each selected template of a successful row maps to its max-overlap point. |
| Overlap.FindMaxCoordsCell | mapper.py:107-130 | With distinct names, every selected (component, template) pair maps to the world point of largest overlap. |
| Overlap.FindMaxCoordsSucceeds | mapper.py:107-130 | Without a selecting `top3`, with enough names and nonempty images, the call does not raise. |
| Overlap.FindMaxCoordsOnlySelected | mapper.py:113-121 | Only listed components and templates appear. With a selecting `top3`, they are only those `top3` lists. |
| Naming.Join | gui/ica_mapping_gui.py:185 | The display name is the first name, the separator `" > "` at its end, and then the second name. |
| Naming.FindFrom | gui/ica_mapping_gui.py:144 | Finds the first occurrence of the separator at or after a position, or reports that none exists. |
| Naming.Split | gui/ica_mapping_gui.py:144 | `split(' > ')` yields at least one piece, and no piece contains the separator. |
| Naming.SplitJoinAll | gui/ica_mapping_gui.py:144 | Joining the pieces of a split with the separator gives back the text. |
| Naming.SplitOne | gui/ica_mapping_gui.py:144 | A text splits into one piece exactly when it has no separator. |
| Naming.Unpack | gui/ica_mapping_gui.py:165-168 | Two-way unpacking succeeds only with two pieces. The pieces join back to the text and contain no separator. |
| Naming.FirstSepOfJoin | gui/ica_mapping_gui.py:185 | If the first name has no separator and does not end in `" >"`, the first separator of the display name is the one the join inserted. |
| Naming.UnpackJoin | gui/ica_mapping_gui.py:165-168 | A display name unpacks into its two names exactly when neither contains `" > "` and the first does not end in `" >"`. |
| Naming.UnpackJoinMisreads | gui/ica_mapping_gui.py:165-168 | `"x >"` joined with `"y"` unpacks, without raising, into `"x"` and `"> y"`. |
| Mappings.RsnMatched | gui/ica_mapping_gui.py:235-238 | Lists the custom template name of every mapping, in order. |
| Mappings.NoiseNames | gui/ica_mapping_gui.py:239-240 | The noise names are the matched names containing `"Nois"`. |
| Mappings.KeptCount | gui/ica_mapping_gui.py:243 | After the chained `not in`, a noise name occurs zero times. Every other name keeps its count, including the `Other*` names. |
| Mappings.CountPairs | gui/ica_mapping_gui.py:244 | The dict comprehension has exactly the kept names occurring more than once, each with its count. |
| Mappings.DuplicatesExact | gui/ica_mapping_gui.py:235-244 | `rsn_duplicates` holds exactly the non-noise custom template names shared by two or more mappings, each with its number of mappings. |
| Mappings.DupItemsGet | gui/ica_mapping_gui.py:245-248 | `ica_to_RSNduplicates` maps a component exactly when its custom template name is a duplicate, and then maps it to that name. |
| Mappings.UpdateDuplicateMappings | gui/ica_mapping_gui.py:234-250 | Recomputes both flag tables from the mappings so that they agree with them exactly. The mappings and items are unchanged. |
| Mappings.OtherDuplicatesFlagged | gui/ica_mapping_gui.py:241-243 | Two mappings onto "Other" are flagged with their count. "Noise" is never flagged. |
| Mappings.Upsert | gui/ica_mapping_gui.py:186-204 | The component gets the new mapping with its display name. It keeps its old item or takes a new one. Every other mapping and every other item is unchanged, the state stays consistent, and the count grows only for a new component. |
| Mappings.UpdateMapping | gui/ica_mapping_gui.py:162-170 | Reading a mapped item back succeeds exactly when its text splits into two names and the first is a mapped component. The result is that component's mapping. Text that does not split in two raises the unpacking error. |
| Mappings.AddMappedNetwork | gui/ica_mapping_gui.py:183-206 | Given the current component and template, succeeds exactly when the new display name splits into two names and the first is the component itself or another mapped component. Otherwise `update_mapping` raises. On success it has the effect of the upsert, then flag tables that agree exactly with the mappings. |
| Mappings.CurrentNetworks | gui/ica_mapping_gui.py:648-651 | Reading the current component and template succeeds exactly when both lists have a current row, and gives their labels. With no current component row it raises on that row. |
| Mappings.AddCurrentNetwork | gui/ica_mapping_gui.py:181-206 | Adding from the current rows succeeds exactly when both lists have a current row and the new display name splits into two names, the first being the current component or a mapped one. On success the current component is mapped to the current template at those rows, every other mapping is kept, and the flags are exact. |
| Mappings.AddMappedNetworkRenamed | gui/ica_mapping_gui.py:181-206 | When both custom names split cleanly, adding raises exactly when the component was given a custom name that is neither its own name nor a mapped component. The error is the `KeyError` on that name. |
| Mappings.AddMappedNetworkExamples | gui/ica_mapping_gui.py:181-206 | Renaming component `ica1` to `DMN comp` in an empty state raises `KeyError('DMN comp')`. |
| Mappings.AppendConsistent | gui/ica_mapping_gui.py:186-188 | A new component with a new item showing its display name keeps one mapping per component and one item per mapping. |
| Mappings.ReplaceConsistent | gui/ica_mapping_gui.py:189-192 | Overwriting a mapping and relabelling its item keeps the state consistent. |
| Mappings.AddMappedNetworkIdempotent | gui/ica_mapping_gui.py:181-206 | When adding a mapping succeeds, adding it again succeeds and leaves the same state. |
| Mappings.UpsertUnchanged | gui/ica_mapping_gui.py:189-204 | Upserting the mapping a component already has changes nothing. |
| Mappings.FlagsFollowMappings | gui/ica_mapping_gui.py:234-250 | The recomputed flags depend on the mappings alone. |
| Mappings.ItemTextUnpacks | gui/ica_mapping_gui.py:165-168 | A mapped item's text splits back into its two custom names exactly under the naming conditions of `Naming.UnpackJoin`. |
| Mappings.FindContaining | gui/ica_mapping_gui.py:443-444 | `findItems(text, MatchContains)[0]` is the first row whose label contains the text, ignoring case. It raises exactly when no label does. |
| Mappings.FindContainingIgnoresCase | gui/ica_mapping_gui.py:443-444 | Two lookups that differ only in letter case find the same row, or both fail. |
| Mappings.FindContainingExamples | gui/ica_mapping_gui.py:443-444 | `visual` finds `Visual_Lateral` before `visual`, and `ica1` finds `ICA1`. |
| Mappings.AddAuto | gui/ica_mapping_gui.py:437-456 | Adding a match needs both rows to be found. The new mapping is appended and uses the lookup names as custom names. The state stays consistent. |
| Mappings.MergeFrom | gui/ica_mapping_gui.py:436-456 | The loop succeeds exactly when every added match finds its rows. User mappings are kept. Each new entry is the automatic mapping of a non-`None` match for a component that was unmapped. |
| Mappings.MergeStep | gui/ica_mapping_gui.py:436-456 | After the first match is handled, what remains to be found is the same. |
| Mappings.MergeKeys | gui/ica_mapping_gui.py:436-456 | The per-component conclusions for the rest of the loop carry over to the whole loop. |
| Mappings.MergeAutoMatches | gui/ica_mapping_gui.py:436-457 | Has the merge's guarantees, then flags that agree exactly with the mappings. |
| Mappings.GuiItems | gui/ica_mapping_gui.py:693-694 | `get_guiitem` has one value per entry: that entry's property, in dict order. |
| Mappings.ImgObjectsAligned | gui/ica_mapping_gui.py:681-691 | `get_imgobjects` and `get_imgobjNames` have equal length. Position by position, they hold the image and name of each entry that has an image. |
| Mappings.ExtrasDropped | gui/ica_mapping_gui.py:386 | An extra item stored with `'img': None` adds nothing to either list. |
| Mappings.RunAnalysisTable | gui/ica_mapping_gui.py:429-432 | Fed these lists, `spatial_correlations` does not raise and has a row for every loaded component. |
| Scan.Unflagged | gui/ica_mapping_gui.py:209 | `mapped_keys` holds the mapped components that are not flagged as duplicates. |
| Scan.MappedKeysMeaning | gui/ica_mapping_gui.py:209 | With exact flags, the scan skips a component exactly when it is mapped to a template name that no other mapping uses (noise counts as unused). |
| Scan.Label | gui/ica_mapping_gui.py:211 | Reading a row's label succeeds exactly for a row inside the list. |
| Scan.PyMod | gui/ica_mapping_gui.py:216 | Python's `%` raises for a zero divisor. For a positive divisor it agrees with the mathematical remainder. |
| Scan.Skip | gui/ica_mapping_gui.py:210-214 | The skip loop fails only from a negative row. It stops on the first unmapped row or just past the end, and every row it passed is mapped. |
| Scan.Land | gui/ica_mapping_gui.py:219-225 | Selects the row it stopped on when that row exists and is unmapped, and row 0 otherwise. |
| Scan.NextUnmappedAsWritten | gui/ica_mapping_gui.py:207-225 | The scan as written raises when no row is current. A row it lands on is unmapped. |
| Scan.NextUnmapped | gui/ica_mapping_gui.py:207-225 | The scan with a restart at row 0. It succeeds exactly when a row is current, and lands on the first unmapped row at or after it, cyclically. It goes back to row 0 exactly when every row is mapped. |
| Scan.WrapIndex | gui/ica_mapping_gui.py:216 | From three rows on, the restart index is row 0. |
| Scan.AsWrittenAgrees | gui/ica_mapping_gui.py:207-225 | The scan as written equals the intended one on lists of three or more rows, and on any list when an unmapped row lies ahead. |
| Scan.AsWrittenFailsOnShortLists | gui/ica_mapping_gui.py:215-218 | On one or two rows, once the scan runs off the end the written restart raises, where the intended scan lands. |
| Scan.AsWrittenFailsExamples | gui/ica_mapping_gui.py:216 | One row: `ZeroDivisionError`. Two rows: `item(-1)` is `None`. In both cases the intended scan lands on a row. |
| Scan.PickRsn | gui/ica_mapping_gui.py:222 | The template picked exists exactly when the component has a nonempty top-three entry, and it is one of that entry's templates. A missing entry raises `KeyError`. An empty one raises `IndexError` from `[0]`, since `max()` is never reached. |
| Scan.PickIsBestMatch | gui/ica_mapping_gui.py:222 | For the top three the engine computed, the template picked is the component's first best match in its full row. |
| Scan.NextFocus | gui/ica_mapping_gui.py:461-479 | The focus moves to an unmapped component, paired with one of its top templates. It returns to row 0 exactly when every component is mapped. |

## Left out

- Image I/O is left out: loading files, `Nifti1Image` objects and their headers. A volume is modelled as a grid, an affine and its values. `isinstance(img, Nifti1Image)` becomes "has an image".
- The numerics are parameters: `np.corrcoef`, resampling, and the sample standard deviation (assumed positive). Floating point, NaN and division by zero are not modelled; reals are exact.
- The `get_top_matches` fallback for a component without a correlation row calls `spatial_correlations` on a loaded file. That call is not modelled; a missing row is a `MissingRow` failure.
- `run_one`, `reports.py` and `gui/settings.py` are left out: they are outside this model.
- Qt rendering is left out: colours, transparency, `plot_max_overlap`, plots and the line edits. Likewise the list focus that `update_mapping` sets and its call to `update_gui`.
- Mappings.FindContaining: searches the row labels. After an analysis, `update_gui` shows template rows as `label (0.xx)` or `label (0.xx)***`. A later merge searches those texts, which differs only for a lookup that runs into the suffix. The widget texts are not modelled.
- Mappings.FindContaining: ignores the case of ASCII letters only. Qt's case-insensitive match also folds other Unicode letters, which would need Unicode case tables.
- The widget lookup `gd['rsn'][rsn]['widget']` after the scan is left out. Its result is only used to select the template row; the model returns the template name.
- `delete_mapped_network` and the regex extraction of labels from file names are outside this model.
- Python 2 dict iteration order is not modelled. Dicts keep insertion order, so "first" and "in order" refer to that order.
- State changes made before an exception are not modelled. A failing operation returns the error, not the half-updated state.
- The `allow_copies` argument of `assign_matches` is unused in the code and is not modelled.

## Notes

- The default `threshold` of `prep_tmap` is 0.2 in the code. See `Mapper.TemplateArray` and `Prep.DefaultThreshold`.
- The chained `k not in rsn_noise not in rsn_other` compares a list with a list of strings in its second test, which is always true. So only `Noise*` names are excluded, and `Other*` names are counted as duplicates like any other. The model follows the code (`Mappings.KeptCount`), and `Mappings.OtherDuplicatesFlagged` shows the consequence.
- The display-name round trip needs one more condition than "neither name contains `' > '`": the first name must not end in `" >"` (`Naming.UnpackJoin`). `Naming.UnpackJoinMisreads` gives an input that shows it.
- `currentRow()` is modelled as a row index from -1 to the last row. With no row current (-1), `item(-1)` is `None` and the scan raises.

## Findings

| source | as written | input that shows it | evidently intended | confidence | as-written member | corrected member |
|---|---|---|---|---|---|---|
| gui/ica_mapping_gui.py:216 | After running off the end, the scan restarts at `ica_ind % ind_max - 1` (the same line is at 470). | One component, mapped and current: `ind_max` is 0, so `%` raises `ZeroDivisionError`. Two components with the second mapped and current: the restart is `2 % 1 - 1 = -1`, and `item(-1)` is `None`, so `.data` raises. | Restart the scan at row 0, as it does for three or more components. | not executed | Scan.NextUnmappedAsWritten, Scan.AsWrittenFailsExamples | Scan.NextUnmapped, Scan.NextFocus |

=== FILE: assoc.dfy ===
/** Python dictionaries as association lists.

    The program keeps every table (correlations, matches, top-3 sets, mapped
    networks) in a Python dict.  A `Dict` here is the list of its items in
    insertion order: assigning to an existing key replaces the value in place,
    assigning to a new key appends.  Iteration order is this order. */
module Assoc {
  import opened Wrappers

  type Dict<K, V> = seq<(K, V)>

  /** `d.keys()`, in iteration order. */
  function Keys<K, V>(d: Dict<K, V>): seq<K>
  {
    seq(|d|, i requires 0 <= i < |d| => d[i].0)
  }

  /** The key of every item is a key of the dict. */
  lemma KeyOfItem<K, V>(d: Dict<K, V>, p: (K, V))
    requires p in d
    ensures p.0 in Keys(d)
  {
    var i :| 0 <= i < |d| && d[i] == p;
    assert Keys(d)[i] == p.0;
  }

  /** Every key occurs once: true of every dict the program builds. */
  predicate UniqueKeys<K(==), V>(d: Dict<K, V>)
  {
    forall i, j :: 0 <= i < j < |d| ==> d[i].0 != d[j].0
  }

  /** Position of the first item with key `k`. */
  function IndexOf<K(==), V>(d: Dict<K, V>, k: K): (i: nat)
    requires k in Keys(d)
    ensures i < |d| && d[i].0 == k
    ensures forall j :: 0 <= j < i ==> d[j].0 != k
  {
    if d[0].0 == k then 0
    else
      assert Keys(d) == [d[0].0] + Keys(d[1..]);
      1 + IndexOf(d[1..], k)
  }

  /** The first item with key `k` is the one `IndexOf` finds. */
  lemma IndexOfIs<K, V>(d: Dict<K, V>, k: K, i: nat)
    requires i < |d| && d[i].0 == k
    requires forall j :: 0 <= j < i ==> d[j].0 != k
    ensures k in Keys(d) && IndexOf(d, k) == i
  {
    assert Keys(d)[i] == k;
  }

  /** `d[k]` when `k in d`, `None` otherwise (where Python raises KeyError). */
  function Get<K(==), V>(d: Dict<K, V>, k: K): (r: Option<V>)
    ensures r.Some? <==> k in Keys(d)
    ensures r.Some? ==> (k, r.value) in d
    ensures UniqueKeys(d) ==> forall i :: 0 <= i < |d| && d[i].0 == k ==> r == Some(d[i].1)
  {
    if k in Keys(d) then Some(d[IndexOf(d, k)].1)
    else
      assert forall i | 0 <= i < |d| :: Keys(d)[i] == d[i].0;
      None
  }

  /** Looking a key up in a dict whose first item is `x`. */
  lemma GetCons<K, V>(x: (K, V), d: Dict<K, V>, k: K)
    ensures Get([x] + d, k) == if x.0 == k then Some(x.1) else Get(d, k)
  {
    var e := [x] + d;
    assert Keys(e) == [x.0] + Keys(d);
    if x.0 != k && k in Keys(d) {
      assert e[1..] == d;
      IndexOfIs(e, k, 1 + IndexOf(d, k));
    }
  }

  /** A new key appended to a dict with distinct keys keeps them distinct. */
  lemma AppendUniqueKeys<K, V>(d: Dict<K, V>, x: (K, V))
    requires UniqueKeys(d) && x.0 !in Keys(d)
    ensures UniqueKeys(d + [x])
  {
    forall i | 0 <= i < |d| ensures d[i].0 != x.0 {
      assert Keys(d)[i] == d[i].0;
    }
  }

  /** A dict with distinct keys whose first item is `x`. */
  lemma ConsUniqueKeys<K, V>(x: (K, V), d: Dict<K, V>)
    requires UniqueKeys(d) && x.0 !in Keys(d)
    ensures UniqueKeys([x] + d)
  {
    forall i | 0 <= i < |d| ensures d[i].0 != x.0 {
      assert Keys(d)[i] == d[i].0;
    }
  }

  /** `d[k] = v`: replaces the value in place, or appends a new item. */
  function Put<K(==,!new), V>(d: Dict<K, V>, k: K, v: V): (r: Dict<K, V>)
    ensures Get(r, k) == Some(v)
    ensures forall k' :: k' != k ==> Get(r, k') == Get(d, k')
    ensures k in Keys(d) ==> Keys(r) == Keys(d) && r == d[IndexOf(d, k) := (k, v)]
    ensures k !in Keys(d) ==> r == d + [(k, v)]
    ensures UniqueKeys(d) ==> UniqueKeys(r)
  {
    if k in Keys(d) then
      var i := IndexOf(d, k);
      var r := d[i := (k, v)];
      assert Keys(r) == Keys(d);
      IndexOfIs(r, k, i);
      forall k' | k' != k && k' in Keys(d)
        ensures IndexOf(r, k') == IndexOf(d, k')
      {
        IndexOfIs(r, k', IndexOf(d, k'));
      }
      r
    else
      var r := d + [(k, v)];
      assert Keys(r) == Keys(d) + [k];
      assert forall j :: 0 <= j < |d| ==> d[j].0 != k by {
        forall j | 0 <= j < |d| ensures d[j].0 != k {
          assert Keys(d)[j] == d[j].0;
        }
      }
      IndexOfIs(r, k, |d|);
      forall k' | k' in Keys(d)
        ensures IndexOf(r, k') == IndexOf(d, k')
      {
        IndexOfIs(r, k', IndexOf(d, k'));
      }
      r
  }

  /** The assignments `d[ps[0].0] = ps[0].1; d[ps[1].0] = ps[1].1; ...` in order;
      `PutAll([], ps)` is `dict(ps)`. */
  function PutAll<K(==,!new), V>(d: Dict<K, V>, ps: seq<(K, V)>): (r: Dict<K, V>)
    ensures UniqueKeys(d) ==> UniqueKeys(r)
    ensures forall k :: k in Keys(r) <==> k in Keys(d) || k in Keys(ps)
    decreases |ps|
  {
    if ps == [] then d
    else
      var init := ps[..|ps| - 1];
      var k := ps[|ps| - 1].0;
      var prev := PutAll(d, init);
      assert Keys(ps) == Keys(init) + [k];
      var r := Put(prev, k, ps[|ps| - 1].1);
      assert Keys(r) == Keys(prev) || Keys(r) == Keys(prev) + [k];
      assert k in Keys(r);
      r
  }

  /** Last write wins: the value stored under a key is the one from its last
      assignment. */
  lemma {:induction false} PutAllLast<K(!new), V>(d: Dict<K, V>, ps: seq<(K, V)>, i: nat)
    requires i < |ps|
    requires forall j :: i < j < |ps| ==> ps[j].0 != ps[i].0
    ensures Get(PutAll(d, ps), ps[i].0) == Some(ps[i].1)
    decreases |ps|
  {
    if i < |ps| - 1 {
      PutAllLast(d, ps[..|ps| - 1], i);
    }
  }

  /** A key never assigned keeps its old value. */
  lemma {:induction false} PutAllUntouched<K(!new), V>(d: Dict<K, V>, ps: seq<(K, V)>, k: K)
    requires k !in Keys(ps)
    ensures Get(PutAll(d, ps), k) == Get(d, k)
    decreases |ps|
  {
    if ps != [] {
      var init := ps[..|ps| - 1];
      assert Keys(ps) == Keys(init) + [ps[|ps| - 1].0];
      PutAllUntouched(d, init, k);
    }
  }

  /** `dict(ps)` of a list without repeated keys is that list. */
  lemma {:induction false} PutAllUnique<K(!new), V>(ps: seq<(K, V)>)
    requires UniqueKeys(ps)
    ensures PutAll([], ps) == ps
    decreases |ps|
  {
    if ps != [] {
      var init := ps[..|ps| - 1];
      var last := ps[|ps| - 1];
      PutAllUnique(init);
      assert last.0 !in Keys(init) by {
        forall j | 0 <= j < |init| ensures Keys(init)[j] != last.0 {
          assert init[j] == ps[j];
        }
      }
      assert PutAll([], ps) == Put(init, last.0, last.1);
      assert init + [last] == ps;
    }
  }

  /** Every item after the assignments was there before or was assigned. */
  lemma {:induction false} PutAllValues<K(!new), V>(d: Dict<K, V>, ps: seq<(K, V)>, p: (K, V))
    requires p in PutAll(d, ps)
    ensures p in d || p in ps
    decreases |ps|
  {
    if ps != [] {
      var init := ps[..|ps| - 1];
      var last := ps[|ps| - 1];
      var prev := PutAll(d, init);
      if p != last {
        if last.0 in Keys(prev) {
          var i := IndexOf(prev, last.0);
          assert PutAll(d, ps) == prev[i := last];
        }
        assert p in prev;
        PutAllValues(d, init, p);
      }
    }
  }
}

=== FILE: mapper.dfy ===
/** The matching engine of `mapper.py`: the correlation table of components
    against templates, the automatic assignment of confident matches and the
    top-3 candidates of every component.

    Images reach the engine as volumes; `np.corrcoef`, the resampling of
    templates onto a component's grid and the sample standard deviation are
    library calls, gathered as parameters in `Oracles`. */
module Mapper {
  import opened Wrappers
  import opened Assoc
  import opened Vectors
  import opened Volumes
  import opened Prep
  import opened Ranking

  type Name = string

  /** One component's correlations, keyed by template name. */
  type Row = Dict<Name, real>

  /** `Mapper.corr`: a row per component name. */
  type Table = Dict<Name, Row>

  /** `np.corrcoef(a, b)[0, 1]`. */
  type Correlation = (seq<real>, seq<real>) -> real

  datatype Oracles = Oracles(corr: Correlation, resample: Resampler, sd: StdDev) {
    ghost predicate Valid()
    {
      PositiveStd(sd) && OntoGrid(resample)
    }
  }

  datatype MapperError =
    | MissingRow(name: Name)   // `self.corr[name]` is absent and the fallback call fails
    | IndexError               // a list index past its end
    | EmptyArray               // `argmax` of an empty array

  /** `prep_tmap(img, scale=True, threshold=1, binary=False)`: a component,
      scaled, with every entry below 1 zeroed. */
  function InputArray(img: Volume, o: Oracles): (a: seq<real>)
    requires o.Valid()
    ensures |a| == |img.data|
    ensures forall i :: 0 <= i < |a| ==> a[i] == 0.0 || a[i] >= 1.0
  {
    var a := PrepArray(img.data, InputOptions, o.sd);
    assert forall i :: 0 <= i < |a| ==> a[i] == 0.0 || a[i] >= 1.0 by {
      var s := Standardize(img.data, InputOptions, o.sd);
      assert forall i :: 0 <= i < |a| ==> if s[i] < 1.0 then a[i] == 0.0 else a[i] == s[i];
    }
    a
  }

  /** Preparing a component with no reference flattens the component itself,
      whatever the resampler. */
  lemma InputArrayIsPrep(img: Volume, o: Oracles)
    requires o.Valid()
    ensures PrepVolume(Some(img), None, InputOptions, o.resample, o.sd) == Success(InputArray(img, o))
  {
  }

  /** `prep_tmap(mimg, reference=img)`: a template resampled onto the
      component's grid and binarised at the default threshold. */
  function TemplateArray(mimg: Volume, img: Volume, o: Oracles): (a: seq<real>)
    requires o.Valid()
    ensures |a| == |img.data|
    ensures forall i :: 0 <= i < |a| ==>
              (a[i] == 0.0 || a[i] == 1.0) && (a[i] == 1.0 <==> o.resample(mimg, img)[i] >= DefaultThreshold)
  {
    PrepVolume(Some(mimg), Some(img), TemplateOptions, o.resample, o.sd).value
  }

  /** `np.corrcoef(prep_tmap(mimg, reference=img), img_arr)[0, 1]`. */
  function Score(img: Volume, mimg: Volume, o: Oracles): real
    requires o.Valid()
  {
    o.corr(TemplateArray(mimg, img, o), InputArray(img, o))
  }

  /** `dict(ps)` of the pairs `(names[i], f(i))` for `i < n`. */
  function Tabulate<V>(names: seq<Name>, n: nat, f: nat --> V): (d: Dict<Name, V>)
    requires n <= |names|
    requires forall i :: 0 <= i < n ==> f.requires(i)
    ensures UniqueKeys(d)
    ensures forall k :: k in Keys(d) <==> k in names[..n]
  {
    var ps := seq(n, i requires 0 <= i < n => (names[i], f(i)));
    assert Keys(ps) == names[..n];
    PutAll([], ps)
  }

  /** The value stored under a name is that of its last occurrence. */
  lemma TabulateLast<V>(names: seq<Name>, n: nat, f: nat --> V, i: nat)
    requires n <= |names|
    requires forall i :: 0 <= i < n ==> f.requires(i)
    requires i < n && forall j :: i < j < n ==> names[j] != names[i]
    ensures Get(Tabulate(names, n, f), names[i]) == Some(f(i))
  {
    var ps := seq(n, i requires 0 <= i < n => (names[i], f(i)));
    PutAllLast([], ps, i);
  }

  /** The inner loop of `spatial_correlations`: one component against every
      template. */
  function CorrelationRow(img: Volume, mapImgs: seq<Volume>, mapNames: seq<Name>, o: Oracles): (row: Row)
    requires o.Valid() && |mapImgs| <= |mapNames|
    ensures UniqueKeys(row)
    ensures forall m :: m in Keys(row) <==> m in mapNames[..|mapImgs|]
  {
    Tabulate(mapNames, |mapImgs|, ii requires 0 <= ii < |mapImgs| => Score(img, mapImgs[ii], o))
  }

  /** `Mapper.spatial_correlations(imgs, map_imgs, img_names, map_names)`.
      A name list shorter than its image list raises an IndexError; the
      template names are only read once there is a component. */
  function SpatialCorrelations(imgs: seq<Volume>, mapImgs: seq<Volume>, imgNames: seq<Name>,
                               mapNames: seq<Name>, o: Oracles): (r: Result<Table, MapperError>)
    requires o.Valid()
    ensures r.Success? <==> |imgs| <= |imgNames| && (|imgs| == 0 || |mapImgs| <= |mapNames|)
    ensures r.Success? ==> UniqueKeys(r.value)
    ensures r.Success? ==> forall n :: n in Keys(r.value) <==> n in imgNames[..|imgs|]
    ensures r.Success? ==> forall p :: p in r.value ==>
              |mapImgs| <= |mapNames| && UniqueKeys(p.1) && forall m :: m in Keys(p.1) <==> m in mapNames[..|mapImgs|]
  {
    if |imgs| > |imgNames| || (|imgs| > 0 && |mapImgs| > |mapNames|) then Failure(IndexError)
    else if |imgs| == 0 then Success([])
    else
      var t := Tabulate(imgNames, |imgs|, i requires 0 <= i < |imgs| => CorrelationRow(imgs[i], mapImgs, mapNames, o));
      assert forall p :: p in t ==> UniqueKeys(p.1) && forall m :: m in Keys(p.1) <==> m in mapNames[..|mapImgs|] by {
        forall p | p in t ensures UniqueKeys(p.1) && forall m :: m in Keys(p.1) <==> m in mapNames[..|mapImgs|] {
          TabulateItem(imgNames, |imgs|, i requires 0 <= i < |imgs| => CorrelationRow(imgs[i], mapImgs, mapNames, o), p);
        }
      }
      Success(t)
  }

  /** Every item of a tabulation is a name paired with its computed value. */
  lemma TabulateItem<V>(names: seq<Name>, n: nat, f: nat --> V, p: (Name, V))
    requires n <= |names|
    requires forall i :: 0 <= i < n ==> f.requires(i)
    requires p in Tabulate(names, n, f)
    ensures exists i :: 0 <= i < n && p == (names[i], f(i))
  {
    var ps := seq(n, i requires 0 <= i < n => (names[i], f(i)));
    PutAllValues([], ps, p);
  }

  /** With distinct names, each cell of the table is the correlation of that
      component with that template. */
  lemma SpatialCorrelationsCell(imgs: seq<Volume>, mapImgs: seq<Volume>, imgNames: seq<Name>,
                                mapNames: seq<Name>, o: Oracles, i: nat, ii: nat)
    requires o.Valid()
    requires |imgs| <= |imgNames| && |mapImgs| <= |mapNames|
    requires i < |imgs| && forall j :: i < j < |imgs| ==> imgNames[j] != imgNames[i]
    requires ii < |mapImgs| && forall j :: ii < j < |mapImgs| ==> mapNames[j] != mapNames[ii]
    ensures var r := SpatialCorrelations(imgs, mapImgs, imgNames, mapNames, o);
      && r.Success?
      && Get(r.value, imgNames[i]) == Some(CorrelationRow(imgs[i], mapImgs, mapNames, o))
      && Get(CorrelationRow(imgs[i], mapImgs, mapNames, o), mapNames[ii]) == Some(Score(imgs[i], mapImgs[ii], o))
  {
    TabulateLast(imgNames, |imgs|, i requires 0 <= i < |imgs| => CorrelationRow(imgs[i], mapImgs, mapNames, o), i);
    TabulateLast(mapNames, |mapImgs|, ii requires 0 <= ii < |mapImgs| => Score(imgs[i], mapImgs[ii], o), ii);
  }

  /** `self.corr[name]`; the fallback for a missing name calls
      `spatial_correlations` with one argument, which raises. */
  function RowOf(table: Table, name: Name): (r: Result<Row, MapperError>)
    ensures r.Success? <==> name in Keys(table)
    ensures r.Success? ==> Get(table, name) == Some(r.value)
    ensures r.Failure? ==> r.error == MissingRow(name)
  {
    match Get(table, name)
    case Some(row) => Success(row)
    case None => Failure(MissingRow(name))
  }

  /** `Mapper.get_top_matches(name, num_matches)`. */
  function TopMatches(table: Table, name: Name, numMatches: Option<int>): (r: Result<seq<(Name, real)>, MapperError>)
    ensures r.Success? <==> name in Keys(table)
    ensures r.Success? ==> Get(table, name) == Some(RowOf(table, name).value)
    ensures r.Success? ==> r.value == Ranked(RowOf(table, name).value, numMatches)
  {
    var row :- RowOf(table, name);
    Success(Ranked(row, numMatches))
  }

  /** The test of `assign_matches` on the best two matches.  `and` short-
      circuits, so the runner-up is read only once the best match reaches the
      minimum. */
  function Decide(top: seq<(Name, real)>, minCorr: real, nullNetwork: Option<Name>): (r: Result<Option<Name>, MapperError>)
  {
    if |top| == 0 then Failure(IndexError)
    else if top[0].1 < minCorr then Success(nullNetwork)
    else if |top| < 2 then Failure(IndexError)
    else if top[0].1 >= 2.0 * top[1].1 then Success(Some(top[0].0))
    else Success(nullNetwork)
  }

  /** The reference rule: the first template with the highest score reaches
      the minimum and at least doubles every other template's score. */
  ghost predicate Confident(row: Row, minCorr: real)
    requires |row| > 0
  {
    var b := ArgMax(Scores(row));
    && row[b].1 >= minCorr
    && forall j :: 0 <= j < |row| && j != b ==> row[b].1 >= 2.0 * row[j].1
  }

  /** One iteration of `assign_matches`. */
  function AssignOne(table: Table, name: Name, minCorr: real, nullNetwork: Option<Name>): (r: Result<Option<Name>, MapperError>)
    ensures name !in Keys(table) ==> r == Failure(MissingRow(name))
  {
    var top :- TopMatches(table, name, Some(2));
    Decide(top, minCorr, nullNetwork)
  }

  /** With two or more templates, a component is matched to the first best
      template exactly when the reference rule holds, and to `null_network`
      otherwise. */
  lemma AssignmentRule(row: Row, minCorr: real, nullNetwork: Option<Name>)
    requires |row| >= 2
    ensures Decide(Ranked(row, Some(2)), minCorr, nullNetwork)
         == Success(if Confident(row, minCorr) then Some(row[ArgMax(Scores(row))].0) else nullNetwork)
  {
    var srt := SortDesc(row);
    var b := ArgMax(Scores(row));
    SortedHead(row);
    SortedRunnerUp(row);
    var top := Ranked(row, Some(2));
    assert top[0] == srt[0] && top[1] == srt[1];
    if Confident(row, minCorr) {
      var j :| 0 <= j < |row| && j != b && row[j] == srt[1];
    }
  }

  /** With no template the ranking is empty and `top_corrs[0]` raises; with
      one, `top_corrs[1]` raises exactly when the only score reaches the
      minimum. */
  lemma AssignmentNeedsTwo(row: Row, minCorr: real, nullNetwork: Option<Name>)
    requires |row| < 2
    ensures |row| == 0 ==> Decide(Ranked(row, Some(2)), minCorr, nullNetwork) == Failure(IndexError)
    ensures |row| == 1 ==> Decide(Ranked(row, Some(2)), minCorr, nullNetwork)
                           == if row[0].1 >= minCorr then Failure(IndexError) else Success(nullNetwork)
  {
    if |row| == 1 {
      assert SortDesc(row) == row;
    }
  }

  /** `for name in names: d[name] = f(name)`, stopping at the first raise. */
  function Fill<V>(names: seq<Name>, f: Name -> Result<V, MapperError>, acc: Dict<Name, V>): (r: Result<Dict<Name, V>, MapperError>)
    ensures r.Success? <==> forall i :: 0 <= i < |names| ==> f(names[i]).Success?
    ensures r.Success? ==> forall i :: 0 <= i < |names| ==> Get(r.value, names[i]) == Some(f(names[i]).value)
    ensures r.Success? ==> forall k :: k !in names ==> Get(r.value, k) == Get(acc, k)
    ensures r.Success? && UniqueKeys(acc) ==> UniqueKeys(r.value)
    ensures r.Failure? ==> exists i :: 0 <= i < |names| && f(names[i]) == Failure(r.error)
    decreases |names|
  {
    if names == [] then Success(acc)
    else
      var v :- f(names[0]);
      var tail := names[1..];
      var next := Put(acc, names[0], v);
      var r := Fill(tail, f, next);
      assert forall i :: 0 < i < |names| ==> names[i] == tail[i - 1];
      if r.Success? then
        FillStep(names, f, acc, v, r.value);
        r
      else
        assert exists i :: 0 <= i < |names| && f(names[i]) == Failure(r.error) by {
          var i :| 0 <= i < |tail| && f(tail[i]) == Failure(r.error);
          assert names[i + 1] == tail[i];
        }
        r
  }

  /** What the rest of the loop stored, seen from the whole loop. */
  lemma FillStep<V>(names: seq<Name>, f: Name -> Result<V, MapperError>, acc: Dict<Name, V>, v: V, r: Dict<Name, V>)
    requires names != [] && f(names[0]) == Success(v)
    requires forall i :: 0 <= i < |names| ==> f(names[i]).Success?
    requires forall i :: 0 <= i < |names| - 1 ==> Get(r, names[1..][i]) == Some(f(names[1..][i]).value)
    requires forall k :: k !in names[1..] ==> Get(r, k) == Get(Put(acc, names[0], v), k)
    ensures forall i :: 0 <= i < |names| ==> Get(r, names[i]) == Some(f(names[i]).value)
    ensures forall k :: k !in names ==> Get(r, k) == Get(acc, k)
  {
    var tail := names[1..];
    forall i | 0 <= i < |names| ensures Get(r, names[i]) == Some(f(names[i]).value) {
      if i > 0 {
        assert tail[i - 1] == names[i];
      } else if names[0] in tail {
        var j :| 0 <= j < |tail| && tail[j] == names[0];
      }
    }
    forall k | k !in names ensures Get(r, k) == Get(acc, k) {
      assert k !in tail && k != names[0];
    }
  }

  /** `Mapper.assign_matches(minimum_correlation, null_network)`, on top of the
      earlier `self.matches`.  The unused `allow_copies` flag is left out. */
  function AssignMatches(table: Table, names: seq<Name>, minCorr: real, nullNetwork: Option<Name>,
                         matches: Dict<Name, Option<Name>>): (r: Result<Dict<Name, Option<Name>>, MapperError>)
    ensures r.Success? <==> forall i :: 0 <= i < |names| ==> AssignOne(table, names[i], minCorr, nullNetwork).Success?
    ensures r.Success? ==> forall i :: 0 <= i < |names| ==>
              Get(r.value, names[i]) == Some(AssignOne(table, names[i], minCorr, nullNetwork).value)
    ensures r.Success? ==> forall k :: k !in names ==> Get(r.value, k) == Get(matches, k)
  {
    Fill(names, n => AssignOne(table, n, minCorr, nullNetwork), matches)
  }

  /** The default `minimum_correlation` of `assign_matches`. */
  const MinimumCorrelation: real := 0.3

  /** One entry of `find_top3`: `dict(get_top_matches(name, num_matches=3))`. */
  function Top3Of(table: Table, name: Name): (r: Result<Row, MapperError>)
    ensures r.Success? <==> name in Keys(table)
  {
    var top :- TopMatches(table, name, Some(3));
    Success(PutAll([], top))
  }

  /** `Mapper.find_top3()`: a fresh dict from every name to its top three. */
  function FindTop3(table: Table, names: seq<Name>): (r: Result<Dict<Name, Row>, MapperError>)
    ensures r.Success? <==> forall i :: 0 <= i < |names| ==> names[i] in Keys(table)
    ensures r.Success? ==> UniqueKeys(r.value)
    ensures r.Success? ==> forall k :: k in Keys(r.value) <==> k in names
    ensures r.Success? ==> forall i :: 0 <= i < |names| ==> Get(r.value, names[i]) == Some(Top3Of(table, names[i]).value)
  {
    var r := Fill(names, n => Top3Of(table, n), []);
    if r.Success? then
      assert forall k :: k in Keys(r.value) <==> k in names by {
        forall k ensures k in Keys(r.value) <==> k in names {
          if k !in names {
            assert Get(r.value, k) == Get([], k);
          } else {
            var i :| 0 <= i < |names| && names[i] == k;
          }
        }
      }
      r
    else r
  }

  /** The top three of a row with distinct template names: at most three
      entries, each with its exact score in the row, non-increasing, and no
      template left out scores higher than one kept. */
  lemma Top3Entry(row: Row)
    requires UniqueKeys(row)
    ensures var top := PutAll([], Ranked(row, Some(3)));
      && top == Ranked(row, Some(3))
      && |top| == (if |row| < 3 then |row| else 3)
      && SortedDesc(top)
      && (forall p :: p in top ==> p in row)
      && (forall p, q :: p in row && p.0 !in Keys(top) && q in top ==> p.1 <= q.1)
  {
    var top := Ranked(row, Some(3));
    TopK(row, 3);
    RankedUniqueKeys(row, 3);
    PutAllUnique(top);
    forall p | p in top ensures p.0 in Keys(top) {
      KeyOfItem(top, p);
    }
  }

  lemma RankedUniqueKeys(row: Row, k: nat)
    requires UniqueKeys(row)
    ensures UniqueKeys(Ranked(row, Some(k)))
  {
    var srt := SortDesc(row);
    var top := Ranked(row, Some(k));
    SortDescUniqueKeys(row);
    assert forall i :: 0 <= i < |top| ==> top[i] == srt[i];
  }

  /** Sorting keeps the keys distinct. */
  lemma {:induction false} SortDescUniqueKeys(xs: Row)
    requires UniqueKeys(xs)
    ensures UniqueKeys(SortDesc(xs))
  {
    if xs != [] {
      SortDescUniqueKeys(xs[1..]);
      var rest := SortDesc(xs[1..]);
      forall e | e in rest ensures e.0 != xs[0].0 {
        assert e in multiset(xs[1..]);
        var j :| 0 <= j < |xs[1..]| && xs[1..][j] == e;
        assert xs[j + 1] == e;
      }
      InsertUniqueKeys(xs[0], rest);
    }
  }

  lemma {:induction false} InsertUniqueKeys(x: (Name, real), ys: Row)
    requires SortedDesc(ys) && UniqueKeys(ys)
    requires forall e :: e in ys ==> e.0 != x.0
    ensures UniqueKeys(Insert(x, ys))
  {
    if ys == [] || x.1 >= ys[0].1 {
      forall i | 0 <= i < |ys| ensures Keys(ys)[i] != x.0 {
        assert ys[i] in ys;
      }
      ConsUniqueKeys(x, ys);
    } else {
      var y := ys[0];
      var tail := ys[1..];
      SortedDescTail(ys);
      assert forall i :: 0 <= i < |tail| ==> tail[i] == ys[i + 1];
      assert forall e :: e in tail ==> e in ys;
      InsertUniqueKeys(x, tail);
      var rest := Insert(x, tail);
      assert Insert(x, ys) == [y] + rest;
      assert y in ys;
      PermAvoidsKey(rest, x, tail, y.0);
      ConsUniqueKeys(y, rest);
    }
  }

  /** A key that neither `x` nor any item of `tail` has is not a key of a
      permutation of `[x] + tail`. */
  lemma PermAvoidsKey<K, V>(rest: seq<(K, V)>, x: (K, V), tail: seq<(K, V)>, k: K)
    requires multiset(rest) == multiset{x} + multiset(tail)
    requires x.0 != k && forall i :: 0 <= i < |tail| ==> tail[i].0 != k
    ensures k !in Keys(rest)
  {
    forall i | 0 <= i < |rest| ensures Keys(rest)[i] != k {
      assert rest[i] in multiset(rest);
      if rest[i] != x {
        assert rest[i] in multiset(tail);
        var j :| 0 <= j < |tail| && tail[j] == rest[i];
      }
    }
  }
}

=== FILE: mappings.dfy ===
/** The mapping bookkeeping of the GUI controller (`gui/ica_mapping_gui.py`):
    the user's component-to-template mappings in `gd['mapped']`, the list of
    mapped items shown for them, the duplicate-template flags recomputed after
    every change, the merge of the engine's automatic matches, and the
    image/name lists handed to the engine.

    List-widget items are handles: a mapping refers to its rows of the
    component and template lists by index, and to its item of the mapped list
    by its position in `items`, the item texts in creation order (sorting the
    widget reorders rows, not handles). */
module Mappings {
  import opened Wrappers
  import opened Assoc
  import opened Volumes
  import opened Mapper
  import opened Naming

  /** One value of `gd['mapped']`. */
  datatype Mapping = Mapping(
    rsnLookup: Name,       // the template's name
    customName: string,    // the display name `"<ica custom> > <rsn custom>"`
    icaCustomName: string,
    rsnCustomName: string,
    icaItem: nat,          // row of the component in its list
    rsnItem: nat,          // row of the template in its list
    mappedItem: nat)       // handle of the mapped-list item

  /** The part of `gd` and of the mapped list this model follows. */
  datatype Gui = Gui(
    mapped: Dict<Name, Mapping>,
    items: seq<string>,
    rsnDuplicates: Dict<string, nat>,
    icaToRsnDuplicates: Dict<Name, string>)

  datatype GuiError =
    | NoMatchingItem(text: string)   // `findItems(text, MatchContains)[0]` on an empty result
    | NoItem(row: int)               // `item(row)` is `None` outside the list
    | ZeroDivision                   // `x % 0`
    | KeyMissing(name: Name)         // `d[name]` on a missing key
    | NoFirst                        // `[...][0]` of an empty list
    | NotTwoParts(text: string)      // `a, b = text.split(' > ')` without exactly two pieces

  /** One mapping per component, one mapped item per mapping, and each item
      shows its mapping's display name. */
  predicate Consistent(g: Gui)
  {
    && UniqueKeys(g.mapped)
    && |g.items| == |g.mapped|
    && (forall i :: 0 <= i < |g.mapped| ==>
          var m := g.mapped[i].1;
          && m.customName == Join(m.icaCustomName, m.rsnCustomName)
          && m.mappedItem < |g.items|
          && g.items[m.mappedItem] == m.customName)
    && (forall i, j :: 0 <= i < j < |g.mapped| ==> g.mapped[i].1.mappedItem != g.mapped[j].1.mappedItem)
  }

  // ---------------------------------------------------------------------------
  // update_duplicate_mappings

  /** `t` occurs in `s`. */
  predicate InText(t: string, s: string)
  {
    exists j :: 0 <= j <= |s| - |t| && OccursAt(t, s, j)
  }

  predicate OccursAt(t: string, s: string, j: int)
  {
    0 <= j <= |s| - |t| && s[j..j + |t|] == t
  }

  /** `re.compile('Noise*').search(k)`: the pattern is "Nois" followed by any
      number of "e", so it finds every name containing "Nois". */
  predicate IsNoise(k: string)
  {
    InText("Nois", k)
  }

  /** The custom template name of every mapping, in iteration order. */
  function RsnMatched(mapped: Dict<Name, Mapping>): (names: seq<string>)
    ensures |names| == |mapped|
    ensures forall i :: 0 <= i < |mapped| ==> names[i] == mapped[i].1.rsnCustomName
  {
    seq(|mapped|, i requires 0 <= i < |mapped| => mapped[i].1.rsnCustomName)
  }

  /** How many mappings use the custom template name `r`. */
  function Shared(mapped: Dict<Name, Mapping>, r: string): nat
  {
    multiset(RsnMatched(mapped))[r]
  }

  /** `filter(ex.search, rsn_matched)`. */
  function NoiseNames(xs: seq<string>): (r: seq<string>)
    ensures forall k :: k in r <==> k in xs && IsNoise(k)
  {
    if xs == [] then []
    else (if IsNoise(xs[0]) then [xs[0]] else []) + NoiseNames(xs[1..])
  }

  /** `[k for k in rsn_matched if k not in rsn_noise not in rsn_other]`.
      The comparison chains to `k not in rsn_noise and rsn_noise not in
      rsn_other`; the second test asks whether a list is an element of a list
      of strings, which it never is, so only the first test filters. */
  function KeptNames(xs: seq<string>, noise: seq<string>): seq<string>
  {
    if xs == [] then []
    else (if xs[0] !in noise then [xs[0]] else []) + KeptNames(xs[1..], noise)
  }

  /** The kept names are the names that are not noise, with their counts. */
  lemma {:induction false} KeptCount(xs: seq<string>, noise: seq<string>, k: string)
    ensures multiset(KeptNames(xs, noise))[k] == if k in noise then 0 else multiset(xs)[k]
  {
    if xs != [] {
      KeptCount(xs[1..], noise, k);
      assert xs == [xs[0]] + xs[1..];
    }
  }

  /** `{rsn: kept.count(rsn) for rsn in kept if kept.count(rsn) > 1}`, as the
      assignments the comprehension makes, in order. */
  function CountPairs(ks: seq<string>, all: seq<string>): (ps: seq<(string, nat)>)
    ensures forall k :: k in Keys(ps) <==> k in ks && multiset(all)[k] > 1
    ensures forall p :: p in ps ==> p.1 == multiset(all)[p.0]
  {
    if ks == [] then []
    else
      var rest := CountPairs(ks[1..], all);
      assert ks == [ks[0]] + ks[1..];
      if multiset(all)[ks[0]] > 1 then
        var p: (string, nat) := (ks[0], multiset(all)[ks[0]]);
        assert Keys([p] + rest) == [ks[0]] + Keys(rest);
        [p] + rest
      else rest
  }

  /** `rsn_duplicated` of `update_duplicate_mappings`. */
  function RsnDuplicates(mapped: Dict<Name, Mapping>): Dict<string, nat>
  {
    var matched := RsnMatched(mapped);
    var kept := KeptNames(matched, NoiseNames(matched));
    PutAll([], CountPairs(kept, kept))
  }

  /** What `rsn_duplicates` holds for a custom template name: its number of
      mappings when that is above one and the name is not noise. */
  function DuplicateFlag(mapped: Dict<Name, Mapping>, r: string): Option<nat>
  {
    if !IsNoise(r) && Shared(mapped, r) > 1 then Some(Shared(mapped, r)) else None
  }

  /** `rsn_duplicates` holds exactly the custom template names, other than
      noise, that more than one mapping uses, each with its count. */
  lemma DuplicatesExact(mapped: Dict<Name, Mapping>, r: string)
    ensures UniqueKeys(RsnDuplicates(mapped))
    ensures Get(RsnDuplicates(mapped), r) == DuplicateFlag(mapped, r)
  {
    var matched := RsnMatched(mapped);
    var kept := KeptNames(matched, NoiseNames(matched));
    var ps := CountPairs(kept, kept);
    KeptCount(matched, NoiseNames(matched), r);
    var got := Get(PutAll([], ps), r);
    if got.Some? {
      PutAllValues([], ps, (r, got.value));
    }
  }

  /** `ica_to_RSNduplicates[ica] = rsn` for every mapping whose custom template
      name is flagged, in iteration order. */
  function DupItems(mapped: Dict<Name, Mapping>, dups: Dict<string, nat>): (ps: seq<(Name, string)>)
    ensures forall k :: k in Keys(ps) ==> k in Keys(mapped)
  {
    if mapped == [] then []
    else
      var here := if mapped[0].1.rsnCustomName in Keys(dups) then [(mapped[0].0, mapped[0].1.rsnCustomName)] else [];
      var rest := DupItems(mapped[1..], dups);
      assert Keys(mapped) == [mapped[0].0] + Keys(mapped[1..]);
      assert Keys(here + rest) == Keys(here) + Keys(rest);
      here + rest
  }

  function IcaToDuplicates(mapped: Dict<Name, Mapping>, dups: Dict<string, nat>): Dict<Name, string>
  {
    PutAll([], DupItems(mapped, dups))
  }

  /** The filtered items keep distinct keys and answer each lookup as the
      mapping does. */
  lemma {:induction false} DupItemsGet(mapped: Dict<Name, Mapping>, dups: Dict<string, nat>, ica: Name)
    requires UniqueKeys(mapped)
    ensures UniqueKeys(DupItems(mapped, dups))
    ensures Get(DupItems(mapped, dups), ica) ==
      match Get(mapped, ica)
      case None => None
      case Some(m) => if m.rsnCustomName in Keys(dups) then Some(m.rsnCustomName) else None
  {
    if mapped != [] {
      var x := mapped[0];
      var rest := DupItems(mapped[1..], dups);
      DupItemsGet(mapped[1..], dups, ica);
      assert mapped == [x] + mapped[1..];
      GetCons(x, mapped[1..], ica);
      assert x.0 !in Keys(rest);
      if x.1.rsnCustomName in Keys(dups) {
        GetCons((x.0, x.1.rsnCustomName), rest, ica);
        ConsUniqueKeys((x.0, x.1.rsnCustomName), rest);
        assert DupItems(mapped, dups) == [(x.0, x.1.rsnCustomName)] + rest;
      } else {
        assert DupItems(mapped, dups) == rest;
      }
    }
  }

  /** What `ica_to_RSNduplicates` holds for a component: the custom name of its
      mapping when that name is flagged as duplicated. */
  function IcaFlag(mapped: Dict<Name, Mapping>, ica: Name): Option<string>
  {
    match Get(mapped, ica)
    case None => None
    case Some(m) => if DuplicateFlag(mapped, m.rsnCustomName).Some? then Some(m.rsnCustomName) else None
  }

  /** Both flag tables agree with the mappings. */
  ghost predicate FlagsExact(g: Gui)
  {
    && UniqueKeys(g.rsnDuplicates)
    && UniqueKeys(g.icaToRsnDuplicates)
    && (forall r :: Get(g.rsnDuplicates, r) == DuplicateFlag(g.mapped, r))
    && (forall ica :: Get(g.icaToRsnDuplicates, ica) == IcaFlag(g.mapped, ica))
  }

  /** `update_duplicate_mappings()`: recomputes both flag tables from the
      mappings and changes nothing else. */
  function UpdateDuplicateMappings(g: Gui): (r: Gui)
    requires UniqueKeys(g.mapped)
    ensures r.mapped == g.mapped && r.items == g.items
    ensures FlagsExact(r)
  {
    var dups := RsnDuplicates(g.mapped);
    var icaDups := IcaToDuplicates(g.mapped, dups);
    assert forall r :: Get(dups, r) == DuplicateFlag(g.mapped, r) by {
      forall r ensures Get(dups, r) == DuplicateFlag(g.mapped, r) {
        DuplicatesExact(g.mapped, r);
      }
    }
    DuplicatesExact(g.mapped, "");
    assert forall ica :: Get(icaDups, ica) == IcaFlag(g.mapped, ica) by {
      forall ica ensures Get(icaDups, ica) == IcaFlag(g.mapped, ica) {
        DupItemsGet(g.mapped, dups, ica);
        PutAllUnique(DupItems(g.mapped, dups));
      }
    }
    DupItemsGet(g.mapped, dups, "");
    PutAllUnique(DupItems(g.mapped, dups));
    g.(rsnDuplicates := dups, icaToRsnDuplicates := icaDups)
  }

  /** Names matching `Other*` are not excluded: two mappings onto "Other" are
      flagged as duplicates, while two onto "Noise" are not. */
  lemma OtherDuplicatesFlagged(g: Gui)
    requires UniqueKeys(g.mapped)
    ensures Shared(g.mapped, "Other") > 1 ==>
      Get(UpdateDuplicateMappings(g).rsnDuplicates, "Other") == Some(Shared(g.mapped, "Other"))
    ensures Get(UpdateDuplicateMappings(g).rsnDuplicates, "Noise") == None
  {
    assert !IsNoise("Other") by {
      forall j | 0 <= j <= 1 ensures !OccursAt("Nois", "Other", j) {
        assert "Other"[j..j + 4][0] == "Other"[j] != 'N';
      }
    }
    assert OccursAt("Nois", "Noise", 0);
  }

  // ---------------------------------------------------------------------------
  // add_mapped_network

  /** The mapped item a mapping of `ica` uses: its existing one, or a new one
      appended to the list. */
  function ItemOf(g: Gui, ica: Name): nat
  {
    if ica in Keys(g.mapped) then Get(g.mapped, ica).value.mappedItem else |g.items|
  }

  /** The update of `gd['mapped']` and of the mapped list in
      `add_mapped_network()`: a component already mapped has its mapping
      overwritten and its item relabelled; otherwise a new item is appended. */
  function Upsert(g: Gui, icaLookup: Name, rsnLookup: Name, icaCustom: string, rsnCustom: string,
                  icaRow: nat, rsnRow: nat): (r: Gui)
    requires Consistent(g)
    ensures Consistent(r)
    ensures Get(r.mapped, icaLookup) == Some(Mapping(rsnLookup, Join(icaCustom, rsnCustom), icaCustom, rsnCustom, icaRow, rsnRow, ItemOf(g, icaLookup)))
    ensures forall k :: k != icaLookup ==> Get(r.mapped, k) == Get(g.mapped, k)
    ensures |r.mapped| == |g.mapped| + (if icaLookup in Keys(g.mapped) then 0 else 1)
    ensures forall h :: 0 <= h < |g.items| && h != ItemOf(g, icaLookup) ==> r.items[h] == g.items[h]
  {
    var name := Join(icaCustom, rsnCustom);
    if icaLookup !in Keys(g.mapped) then
      var m := Mapping(rsnLookup, name, icaCustom, rsnCustom, icaRow, rsnRow, |g.items|);
      AppendConsistent(g, icaLookup, m);
      assert Put(g.mapped, icaLookup, m) == g.mapped + [(icaLookup, m)];
      g.(mapped := Put(g.mapped, icaLookup, m), items := g.items + [name])
    else
      var i := IndexOf(g.mapped, icaLookup);
      var item := g.mapped[i].1.mappedItem;
      assert ItemOf(g, icaLookup) == item;
      var m := Mapping(rsnLookup, name, icaCustom, rsnCustom, icaRow, rsnRow, item);
      ReplaceConsistent(g, i, m);
      assert Put(g.mapped, icaLookup, m) == g.mapped[i := (g.mapped[i].0, m)];
      g.(mapped := Put(g.mapped, icaLookup, m), items := g.items[item := name])
  }

  /** `update_mapping(item)`: the item's text is split back into the two
      names, and the mapping of the component name is looked up to move the
      focus of both lists to its rows. Returns that mapping; the focus and
      the line edits it sets are not part of this model. */
  function UpdateMapping(g: Gui, text: string): (r: Result<Mapping, GuiError>)
    ensures r.Success? <==> Unpack(text).Some? && Unpack(text).value.0 in Keys(g.mapped)
    ensures r.Success? ==> Get(g.mapped, Unpack(text).value.0) == Some(r.value)
    ensures Unpack(text).None? ==> r == Failure(NotTwoParts(text))
  {
    match Unpack(text)
    case None => Failure(NotTwoParts(text))
    case Some((ica, _)) =>
      match Get(g.mapped, ica)
      case None => Failure(KeyMissing(ica))
      case Some(m) => Success(m)
  }

  /** `add_mapped_network()` for the current component `icaLookup` and template
      `rsnLookup` (at rows `icaRow` and `rsnRow`) under the names in the two
      line edits: the mapping is upserted, one per component, the flags are
      recomputed, and `update_mapping` reads the new item's text back. That
      read raises unless the display name splits into two names the first of
      which is a mapped component. */
  function AddMappedNetwork(g: Gui, icaLookup: Name, rsnLookup: Name, icaCustom: string, rsnCustom: string,
                            icaRow: nat, rsnRow: nat): (r: Result<Gui, GuiError>)
    requires Consistent(g)
    ensures var u := Unpack(Join(icaCustom, rsnCustom));
      r.Success? <==> u.Some? && (u.value.0 == icaLookup || u.value.0 in Keys(g.mapped))
    ensures r.Success? ==> Consistent(r.value) && FlagsExact(r.value)
    ensures r.Success? ==>
              Get(r.value.mapped, icaLookup) == Some(Mapping(rsnLookup, Join(icaCustom, rsnCustom), icaCustom, rsnCustom, icaRow, rsnRow, ItemOf(g, icaLookup)))
    ensures r.Success? ==> forall k :: k != icaLookup ==> Get(r.value.mapped, k) == Get(g.mapped, k)
    ensures r.Success? ==> |r.value.mapped| == |g.mapped| + (if icaLookup in Keys(g.mapped) then 0 else 1)
    ensures r.Success? ==> forall h :: 0 <= h < |g.items| && h != ItemOf(g, icaLookup) ==> r.value.items[h] == g.items[h]
  {
    var next := UpdateDuplicateMappings(Upsert(g, icaLookup, rsnLookup, icaCustom, rsnCustom, icaRow, rsnRow));
    UpsertKeys(g, icaLookup, rsnLookup, icaCustom, rsnCustom, icaRow, rsnRow, Unpack(Join(icaCustom, rsnCustom)));
    var _ :- UpdateMapping(next, Join(icaCustom, rsnCustom));
    Success(next)
  }

  /** After the upsert, the mapped components are the old ones and `icaLookup`;
      stated for the component name read back from an item, if any. */
  lemma UpsertKeys(g: Gui, icaLookup: Name, rsnLookup: Name, icaCustom: string, rsnCustom: string,
                   icaRow: nat, rsnRow: nat, u: Option<(string, string)>)
    requires Consistent(g)
    ensures var r := Upsert(g, icaLookup, rsnLookup, icaCustom, rsnCustom, icaRow, rsnRow);
      u.Some? ==> (u.value.0 in Keys(r.mapped) <==> u.value.0 == icaLookup || u.value.0 in Keys(g.mapped))
  {
    var r := Upsert(g, icaLookup, rsnLookup, icaCustom, rsnCustom, icaRow, rsnRow);
    if u.Some? {
      var k := u.value.0;
      assert Get(r.mapped, k).Some? <==> k in Keys(r.mapped);
      assert Get(g.mapped, k).Some? <==> k in Keys(g.mapped);
    }
  }

  /** `get_current_networks()`: the labels of the current rows of the
      component list and of the template list, `-1` standing for no current
      row. Without a current item, `currentItem()` is `None` and reading its
      data raises; the component list is read first. */
  function CurrentNetworks(icaLabels: seq<Name>, rsnLabels: seq<Name>, icaCurrent: int, rsnCurrent: int)
    : (r: Result<(Name, Name), GuiError>)
    ensures r.Success? <==> 0 <= icaCurrent < |icaLabels| && 0 <= rsnCurrent < |rsnLabels|
    ensures r.Success? ==> r.value == (icaLabels[icaCurrent], rsnLabels[rsnCurrent])
    ensures !(0 <= icaCurrent < |icaLabels|) ==> r == Failure(NoItem(icaCurrent))
  {
    if !(0 <= icaCurrent < |icaLabels|) then Failure(NoItem(icaCurrent))
    else if !(0 <= rsnCurrent < |rsnLabels|) then Failure(NoItem(rsnCurrent))
    else Success((icaLabels[icaCurrent], rsnLabels[rsnCurrent]))
  }

  /** `add_mapped_network()` from the GUI's state: the component and the
      template are the current rows of their lists. It raises when either
      list has no current row, or when `update_mapping` cannot read the new
      item back. */
  function AddCurrentNetwork(g: Gui, icaLabels: seq<Name>, rsnLabels: seq<Name>, icaCurrent: int, rsnCurrent: int,
                             icaCustom: string, rsnCustom: string): (r: Result<Gui, GuiError>)
    requires Consistent(g)
    ensures r.Success? <==>
              && 0 <= icaCurrent < |icaLabels| && 0 <= rsnCurrent < |rsnLabels|
              && var u := Unpack(Join(icaCustom, rsnCustom));
                 u.Some? && (u.value.0 == icaLabels[icaCurrent] || u.value.0 in Keys(g.mapped))
    ensures !(0 <= icaCurrent < |icaLabels|) ==> r == Failure(NoItem(icaCurrent))
    ensures r.Success? ==> Consistent(r.value) && FlagsExact(r.value)
    ensures r.Success? ==>
              var ica := icaLabels[icaCurrent];
              Get(r.value.mapped, ica) ==
                Some(Mapping(rsnLabels[rsnCurrent], Join(icaCustom, rsnCustom), icaCustom, rsnCustom,
                             icaCurrent, rsnCurrent, ItemOf(g, ica)))
    ensures r.Success? ==> forall k :: k != icaLabels[icaCurrent] ==> Get(r.value.mapped, k) == Get(g.mapped, k)
  {
    var names :- CurrentNetworks(icaLabels, rsnLabels, icaCurrent, rsnCurrent);
    AddMappedNetwork(g, names.0, names.1, icaCustom, rsnCustom, icaCurrent, rsnCurrent)
  }

  /** When neither custom name gets in the way of the split, adding a mapping
      raises exactly when the component's custom name is neither its own
      name nor that of a mapped component: renaming a component on its own
      makes `update_mapping` look up a name `gd['mapped']` does not have. */
  lemma AddMappedNetworkRenamed(g: Gui, icaLookup: Name, rsnLookup: Name, icaCustom: string, rsnCustom: string,
                                icaRow: nat, rsnRow: nat)
    requires Consistent(g)
    requires !Contains(icaCustom) && !EndsWithHalfSep(icaCustom) && !Contains(rsnCustom)
    ensures var r := AddMappedNetwork(g, icaLookup, rsnLookup, icaCustom, rsnCustom, icaRow, rsnRow);
      r.Success? <==> icaCustom == icaLookup || icaCustom in Keys(g.mapped)
    ensures var r := AddMappedNetwork(g, icaLookup, rsnLookup, icaCustom, rsnCustom, icaRow, rsnRow);
      r.Failure? ==> r.error == KeyMissing(icaCustom)
  {
    UnpackJoin(icaCustom, rsnCustom);
  }

  /** Appending a mapping for an unmapped component, with a new item showing
      its display name, keeps the state consistent. */
  lemma AppendConsistent(g: Gui, ica: Name, m: Mapping)
    requires Consistent(g) && ica !in Keys(g.mapped)
    requires m.customName == Join(m.icaCustomName, m.rsnCustomName) && m.mappedItem == |g.items|
    ensures Consistent(g.(mapped := g.mapped + [(ica, m)], items := g.items + [m.customName]))
  {
    AppendUniqueKeys(g.mapped, (ica, m));
  }

  /** Overwriting the mapping at position `i`, keeping its item and relabelling
      it, keeps the state consistent. */
  lemma ReplaceConsistent(g: Gui, i: nat, m: Mapping)
    requires Consistent(g) && i < |g.mapped|
    requires m.customName == Join(m.icaCustomName, m.rsnCustomName) && m.mappedItem == g.mapped[i].1.mappedItem
    ensures Consistent(g.(mapped := g.mapped[i := (g.mapped[i].0, m)], items := g.items[m.mappedItem := m.customName]))
  {
    var mapped := g.mapped[i := (g.mapped[i].0, m)];
    assert forall j :: 0 <= j < |g.mapped| && j != i ==> g.mapped[j].1.mappedItem != m.mappedItem;
    assert forall j :: 0 <= j < |mapped| ==> mapped[j].0 == g.mapped[j].0;
  }

  /** On an empty state, renaming component `ica1` to `DMN comp` raises the
      `KeyError`. */
  lemma AddMappedNetworkExamples()
    ensures AddMappedNetwork(Gui([], [], [], []), "ica1", "DMN", "DMN comp", "DMN", 0, 0) == Failure(KeyMissing("DMN comp"))
  {
    var empty := Gui([], [], [], []);
    NoSepWithoutGt("DMN comp");
    NoSepWithoutGt("DMN");
    AddMappedNetworkRenamed(empty, "ica1", "DMN", "DMN comp", "DMN", 0, 0);
  }

  /** Adding the same mapping twice is adding it once: the second call finds
      the component mapped and rewrites the same entry and item. */
  lemma AddMappedNetworkIdempotent(g: Gui, icaLookup: Name, rsnLookup: Name, icaCustom: string,
                                   rsnCustom: string, icaRow: nat, rsnRow: nat)
    requires Consistent(g)
    ensures var once := AddMappedNetwork(g, icaLookup, rsnLookup, icaCustom, rsnCustom, icaRow, rsnRow);
      once.Success? ==> AddMappedNetwork(once.value, icaLookup, rsnLookup, icaCustom, rsnCustom, icaRow, rsnRow) == once
  {
    var u := Upsert(g, icaLookup, rsnLookup, icaCustom, rsnCustom, icaRow, rsnRow);
    var next := UpdateDuplicateMappings(u);
    UpsertUnchanged(next, icaLookup, rsnLookup, icaCustom, rsnCustom, icaRow, rsnRow);
    FlagsFollowMappings(next, u);
    AddMappedNetworkAfter(g, icaLookup, rsnLookup, icaCustom, rsnCustom, icaRow, rsnRow);
    AddMappedNetworkAfter(next, icaLookup, rsnLookup, icaCustom, rsnCustom, icaRow, rsnRow);
  }

  /** Adding a mapping is the upsert and flag update, followed by the read-back
      of the display name on the state they leave. */
  lemma AddMappedNetworkAfter(g: Gui, icaLookup: Name, rsnLookup: Name, icaCustom: string, rsnCustom: string,
                              icaRow: nat, rsnRow: nat)
    requires Consistent(g)
    ensures var next := UpdateDuplicateMappings(Upsert(g, icaLookup, rsnLookup, icaCustom, rsnCustom, icaRow, rsnRow));
      var r := AddMappedNetwork(g, icaLookup, rsnLookup, icaCustom, rsnCustom, icaRow, rsnRow);
      (r.Success? <==> UpdateMapping(next, Join(icaCustom, rsnCustom)).Success?) && (r.Success? ==> r.value == next)
  {
  }

  /** Upserting the mapping a component already has changes nothing. */
  lemma UpsertUnchanged(g: Gui, icaLookup: Name, rsnLookup: Name, icaCustom: string, rsnCustom: string,
                        icaRow: nat, rsnRow: nat)
    requires Consistent(g)
    requires Get(g.mapped, icaLookup) == Some(Mapping(rsnLookup, Join(icaCustom, rsnCustom), icaCustom, rsnCustom,
                                                      icaRow, rsnRow, ItemOf(g, icaLookup)))
    ensures Upsert(g, icaLookup, rsnLookup, icaCustom, rsnCustom, icaRow, rsnRow) == g
  {
    var m := Get(g.mapped, icaLookup).value;
    var i := IndexOf(g.mapped, icaLookup);
    assert g.mapped[i] == (icaLookup, m);
    assert g.mapped[i := (icaLookup, m)] == g.mapped;
    assert g.items[m.mappedItem := m.customName] == g.items;
  }

  /** The recomputed flags depend on the mappings alone. */
  lemma FlagsFollowMappings(a: Gui, b: Gui)
    requires UniqueKeys(a.mapped) && a.mapped == b.mapped && a.items == b.items
    ensures UpdateDuplicateMappings(a) == UpdateDuplicateMappings(b)
  {
  }

  /** The text of a mapping's item splits back into its two custom names
      exactly when the display name survives the split. */
  lemma ItemTextUnpacks(g: Gui, ica: Name)
    requires Consistent(g) && ica in Keys(g.mapped)
    ensures var m := Get(g.mapped, ica).value;
      Unpack(g.items[m.mappedItem]) == Some((m.icaCustomName, m.rsnCustomName)) <==>
        !Contains(m.icaCustomName) && !EndsWithHalfSep(m.icaCustomName) && !Contains(m.rsnCustomName)
  {
    var m := Get(g.mapped, ica).value;
    UnpackJoin(m.icaCustomName, m.rsnCustomName);
  }

  // ---------------------------------------------------------------------------
  // the merge of automatic matches in run_analysis

  /** A letter `A`..`Z` lowered to `a`..`z`; every other character kept. */
  function LowerChar(c: char): char
  {
    if 'A' <= c <= 'Z' then (c as int - 'A' as int + 'a' as int) as char else c
  }

  /** `s` with its ASCII letters lowered. */
  function Lower(s: string): (r: string)
    ensures |r| == |s|
    ensures forall i :: 0 <= i < |s| ==> r[i] == LowerChar(s[i])
  {
    seq(|s|, i requires 0 <= i < |s| => LowerChar(s[i]))
  }

  /** `t` occurs in `s` when the case of letters is ignored: the test
      `MatchContains` makes, since `Qt.MatchCaseSensitive` is not given. */
  predicate ContainsIgnoringCase(t: string, s: string)
  {
    InText(Lower(t), Lower(s))
  }

  /** `listWidget.findItems(text, MatchContains)[0]`: the first row whose label
      contains `text`, ignoring case. */
  function FindContaining(labels: seq<string>, text: string): (r: Result<nat, GuiError>)
    ensures r.Success? ==> r.value < |labels| && ContainsIgnoringCase(text, labels[r.value])
    ensures r.Success? ==> forall j :: 0 <= j < r.value ==> !ContainsIgnoringCase(text, labels[j])
    ensures r.Failure? <==> forall j :: 0 <= j < |labels| ==> !ContainsIgnoringCase(text, labels[j])
    ensures r.Failure? ==> r.error == NoMatchingItem(text)
  {
    if labels == [] then Failure(NoMatchingItem(text))
    else if ContainsIgnoringCase(text, labels[0]) then Success(0)
    else
      var rest := FindContaining(labels[1..], text);
      assert forall j :: 0 < j < |labels| ==> labels[j] == labels[1..][j - 1];
      if rest.Success? then Success(rest.value + 1) else rest
  }

  /** Two lookups that differ only in the case of letters find the same row. */
  lemma {:induction false} FindContainingIgnoresCase(labels: seq<string>, t: string, u: string)
    requires Lower(t) == Lower(u)
    ensures FindContaining(labels, t).Success? <==> FindContaining(labels, u).Success?
    ensures FindContaining(labels, t).Success? ==> FindContaining(labels, t).value == FindContaining(labels, u).value
  {
    if labels != [] && !ContainsIgnoringCase(t, labels[0]) {
      FindContainingIgnoresCase(labels[1..], t, u);
    }
  }

  /** The row found is the first label containing the text in any case:
      `"visual"` finds `"Visual_Lateral"` before `"visual"`, and `"ica1"`
      finds `"ICA1"`. */
  lemma FindContainingExamples()
    ensures FindContaining(["Visual_Lateral", "visual"], "visual") == Success(0)
    ensures FindContaining(["ICA1"], "ica1") == Success(0)
  {
    assert Lower("visual") == "visual" && Lower("Visual_Lateral")[0..6] == "visual";
    assert OccursAt(Lower("visual"), Lower("Visual_Lateral"), 0);
    assert ContainsIgnoringCase("visual", "Visual_Lateral");
    assert Lower("ica1") == "ica1" == Lower("ICA1");
    assert OccursAt(Lower("ica1"), Lower("ICA1"), 0);
    assert ContainsIgnoringCase("ica1", "ICA1");
  }

  /** The mapping the merge adds for an automatic match `ica -> rsn`. */
  predicate AutoMapping(m: Mapping, ica: Name, rsn: Name, icaLabels: seq<string>, rsnLabels: seq<string>)
  {
    && m.rsnLookup == rsn
    && m.icaCustomName == ica
    && m.rsnCustomName == rsn
    && m.customName == Join(ica, rsn)
    && FindContaining(icaLabels, ica) == Success(m.icaItem)
    && FindContaining(rsnLabels, rsn) == Success(m.rsnItem)
  }

  /** The merge needs both rows of every match it adds. */
  predicate Findable(ms: Dict<Name, Option<Name>>, mapped: Dict<Name, Mapping>, icaLabels: seq<string>, rsnLabels: seq<string>)
  {
    forall i :: 0 <= i < |ms| && ms[i].0 !in Keys(mapped) && ms[i].1.Some? ==>
      FindContaining(icaLabels, ms[i].0).Success? && FindContaining(rsnLabels, ms[i].1.value).Success?
  }

  /** One step of the merge: add the match `ica -> rsn` for an unmapped
      component with a new item. */
  function AddAuto(g: Gui, ica: Name, rsn: Name, icaLabels: seq<string>, rsnLabels: seq<string>): (r: Result<Gui, GuiError>)
    requires Consistent(g) && ica !in Keys(g.mapped)
    ensures r.Success? <==> FindContaining(icaLabels, ica).Success? && FindContaining(rsnLabels, rsn).Success?
    ensures r.Success? ==> Consistent(r.value) && |r.value.mapped| == |g.mapped| + 1
    ensures r.Success? ==> r.value.mapped == g.mapped + [(ica, r.value.mapped[|g.mapped|].1)]
    ensures r.Success? ==> AutoMapping(r.value.mapped[|g.mapped|].1, ica, rsn, icaLabels, rsnLabels)
  {
    var name := Join(ica, rsn);
    var items := g.items + [name];
    var icaItem :- FindContaining(icaLabels, ica);
    var rsnItem :- FindContaining(rsnLabels, rsn);
    var m := Mapping(rsn, name, ica, rsn, icaItem, rsnItem, |g.items|);
    AppendConsistent(g, ica, m);
    Success(g.(mapped := Put(g.mapped, ica, m), items := items))
  }

  /** The loop over `self.mapper.matches`: matches for components the user has
      not mapped, and that are not `None`, are added in iteration order; a
      missing row raises. */
  function MergeFrom(g: Gui, ms: Dict<Name, Option<Name>>, icaLabels: seq<string>, rsnLabels: seq<string>): (r: Result<Gui, GuiError>)
    requires Consistent(g) && UniqueKeys(ms)
    ensures r.Success? <==> Findable(ms, g.mapped, icaLabels, rsnLabels)
    ensures r.Success? ==> Consistent(r.value)
    ensures r.Success? ==> forall k :: k in Keys(g.mapped) ==> Get(r.value.mapped, k) == Get(g.mapped, k)
    ensures r.Success? ==> forall k :: k !in Keys(g.mapped) ==>
      match Get(r.value.mapped, k)
      case None => Get(ms, k).None? || Get(ms, k).value.None?
      case Some(m) => Get(ms, k).Some? && Get(ms, k).value.Some? && AutoMapping(m, k, Get(ms, k).value.value, icaLabels, rsnLabels)
    decreases |ms|
  {
    if ms == [] then Success(g)
    else
      var (ica, rsn) := ms[0];
      assert ms == [ms[0]] + ms[1..];
      assert forall i :: 1 <= i < |ms| ==> ms[i] == ms[1..][i - 1];
      assert ica !in Keys(ms[1..]) by {
        forall j | 0 <= j < |ms[1..]| ensures Keys(ms[1..])[j] != ica {
          assert ms[j + 1].0 != ms[0].0;
        }
      }
      var step := if ica !in Keys(g.mapped) && rsn.Some? then AddAuto(g, ica, rsn.value, icaLabels, rsnLabels) else Success(g);
      if step.Failure? then
        assert !Findable(ms, g.mapped, icaLabels, rsnLabels) by {
          assert ms[0].0 !in Keys(g.mapped) && ms[0].1.Some?;
        }
        Failure(step.error)
      else
        var g' := step.value;
        var r := MergeFrom(g', ms[1..], icaLabels, rsnLabels);
        MergeStep(g, g', ms, icaLabels, rsnLabels);
        if r.Success? then
          MergeKeys(g, g', r.value, ms, icaLabels, rsnLabels);
          r
        else r
  }

  /** The first step of the merge adds at most the head's component, so what
      remains to be found is the same before and after. */
  lemma MergeStep(g: Gui, g': Gui, ms: Dict<Name, Option<Name>>, icaLabels: seq<string>, rsnLabels: seq<string>)
    requires Consistent(g) && UniqueKeys(ms) && |ms| > 0
    requires ms[0].0 !in Keys(ms[1..])
    requires ms[0].0 !in Keys(g.mapped) && ms[0].1.Some? ==> AddAuto(g, ms[0].0, ms[0].1.value, icaLabels, rsnLabels) == Success(g')
    requires !(ms[0].0 !in Keys(g.mapped) && ms[0].1.Some?) ==> g' == g
    ensures Findable(ms, g.mapped, icaLabels, rsnLabels) <==> Findable(ms[1..], g'.mapped, icaLabels, rsnLabels)
  {
    forall k | k != ms[0].0 ensures k in Keys(g'.mapped) <==> k in Keys(g.mapped) {
      if g' != g {
        assert Keys(g'.mapped) == Keys(g.mapped) + [ms[0].0];
      }
    }
    forall j | 0 <= j < |ms[1..]| ensures ms[1..][j].0 != ms[0].0 && ms[1..][j] == ms[j + 1] {
      assert Keys(ms[1..])[j] == ms[1..][j].0;
    }
  }

  /** The per-key conclusions of the merge carry over from the rest of the loop
      to the whole loop. */
  lemma MergeKeys(g: Gui, g': Gui, r: Gui, ms: Dict<Name, Option<Name>>, icaLabels: seq<string>, rsnLabels: seq<string>)
    requires Consistent(g) && UniqueKeys(ms) && |ms| > 0
    requires ms[0].0 !in Keys(ms[1..])
    requires ms[0].0 !in Keys(g.mapped) && ms[0].1.Some? ==> AddAuto(g, ms[0].0, ms[0].1.value, icaLabels, rsnLabels) == Success(g')
    requires !(ms[0].0 !in Keys(g.mapped) && ms[0].1.Some?) ==> g' == g
    requires forall k :: k in Keys(g'.mapped) ==> Get(r.mapped, k) == Get(g'.mapped, k)
    requires forall k :: k !in Keys(g'.mapped) ==>
      match Get(r.mapped, k)
      case None => Get(ms[1..], k).None? || Get(ms[1..], k).value.None?
      case Some(m) => Get(ms[1..], k).Some? && Get(ms[1..], k).value.Some? && AutoMapping(m, k, Get(ms[1..], k).value.value, icaLabels, rsnLabels)
    ensures forall k :: k in Keys(g.mapped) ==> Get(r.mapped, k) == Get(g.mapped, k)
    ensures forall k :: k !in Keys(g.mapped) ==>
      match Get(r.mapped, k)
      case None => Get(ms, k).None? || Get(ms, k).value.None?
      case Some(m) => Get(ms, k).Some? && Get(ms, k).value.Some? && AutoMapping(m, k, Get(ms, k).value.value, icaLabels, rsnLabels)
  {
    var ica := ms[0].0;
    assert ms == [ms[0]] + ms[1..];
    var added := ica !in Keys(g.mapped) && ms[0].1.Some?;
    forall k | k in Keys(g.mapped) ensures Get(r.mapped, k) == Get(g.mapped, k) {
      if added {
        assert Keys(g'.mapped) == Keys(g.mapped) + [ica];
        assert Get(g'.mapped, k) == Get(g.mapped, k);
      }
    }
    forall k | k !in Keys(g.mapped)
      ensures match Get(r.mapped, k)
        case None => Get(ms, k).None? || Get(ms, k).value.None?
        case Some(m) => Get(ms, k).Some? && Get(ms, k).value.Some? && AutoMapping(m, k, Get(ms, k).value.value, icaLabels, rsnLabels)
    {
      GetCons(ms[0], ms[1..], k);
      if k == ica {
        if added {
          assert Keys(g'.mapped) == Keys(g.mapped) + [ica];
          assert Get(g'.mapped, k) == Some(g'.mapped[|g.mapped|].1);
        } else {
          assert Get(ms[1..], k) == None;
        }
      } else {
        if added {
          assert Keys(g'.mapped) == Keys(g.mapped) + [ica];
        }
      }
    }
  }

  /** The merge of `run_analysis`: the loop, then `update_duplicate_mappings()`.
      Mappings the user made are never changed, and every new mapping is an
      unmapped component's automatic match under its own names. */
  function MergeAutoMatches(g: Gui, matches: Dict<Name, Option<Name>>, icaLabels: seq<string>, rsnLabels: seq<string>): (r: Result<Gui, GuiError>)
    requires Consistent(g) && UniqueKeys(matches)
    ensures r.Success? <==> Findable(matches, g.mapped, icaLabels, rsnLabels)
    ensures r.Success? ==> Consistent(r.value) && FlagsExact(r.value)
    ensures r.Success? ==> forall k :: k in Keys(g.mapped) ==> Get(r.value.mapped, k) == Get(g.mapped, k)
    ensures r.Success? ==> forall k :: k !in Keys(g.mapped) ==>
      match Get(r.value.mapped, k)
      case None => Get(matches, k).None? || Get(matches, k).value.None?
      case Some(m) => Get(matches, k).Some? && Get(matches, k).value.Some? && AutoMapping(m, k, Get(matches, k).value.value, icaLabels, rsnLabels)
  {
    var merged :- MergeFrom(g, matches, icaLabels, rsnLabels);
    Success(UpdateDuplicateMappings(merged))
  }

  // ---------------------------------------------------------------------------
  // get_guiitem, get_imgobjects, get_imgobjNames

  /** A value of `gd['ica']` or `gd['rsn']`: its image, `None` for the
      placeholder extras, and its name. */
  datatype Entry = Entry(img: Option<Volume>, name: Name)

  /** The properties `'img'` and `'name'`, and the `isinstance` test on the
      first. */
  function ImageOf(e: Entry): Option<Volume> { e.img }

  function NameOf(e: Entry): Name { e.name }

  function IsImage(e: Entry): bool { e.img.Some? }

  /** `get_guiitem(list_name, prop)`: one property of every entry, in
      iteration order. */
  function GuiItems<T>(d: Dict<Name, Entry>, prop: Entry -> T): (r: seq<T>)
    ensures |r| == |d| && forall i :: 0 <= i < |d| ==> r[i] == prop(d[i].1)
  {
    seq(|d|, i requires 0 <= i < |d| => prop(d[i].1))
  }

  /** `[img for img in imgs if isinstance(img, (Nifti1Image, Nifti1Pair))]`. */
  function Images(imgs: seq<Option<Volume>>): seq<Volume>
  {
    if imgs == [] then []
    else
      var last := imgs[|imgs| - 1];
      Images(imgs[..|imgs| - 1]) + (if last.Some? then [last.value] else [])
  }

  /** The loop of `get_imgobjNames`: the names whose flag is set. */
  function FlaggedNames(flags: seq<bool>, names: seq<Name>): seq<Name>
    requires |flags| == |names|
  {
    if names == [] then []
    else
      FlaggedNames(flags[..|flags| - 1], names[..|names| - 1]) + (if flags[|flags| - 1] then [names[|names| - 1]] else [])
  }

  function ImgObjects(d: Dict<Name, Entry>): seq<Volume>
  {
    Images(GuiItems(d, ImageOf))
  }

  function ImgObjNames(d: Dict<Name, Entry>): seq<Name>
  {
    FlaggedNames(GuiItems(d, IsImage), GuiItems(d, NameOf))
  }

  /** The entries that have an image, as (image, name) pairs in order. */
  function Loaded(d: Dict<Name, Entry>): seq<(Volume, Name)>
  {
    if d == [] then []
    else
      var last := d[|d| - 1].1;
      Loaded(d[..|d| - 1]) + (if last.img.Some? then [(last.img.value, last.name)] else [])
  }

  /** The image list and the name list the engine receives are the images and
      the names of the same entries: equally long, and aligned index by index. */
  lemma {:induction false} ImgObjectsAligned(d: Dict<Name, Entry>)
    ensures |ImgObjects(d)| == |ImgObjNames(d)| == |Loaded(d)|
    ensures forall t :: 0 <= t < |Loaded(d)| ==> ImgObjects(d)[t] == Loaded(d)[t].0 && ImgObjNames(d)[t] == Loaded(d)[t].1
  {
    if d != [] {
      var init := d[..|d| - 1];
      ImgObjectsAligned(init);
      assert GuiItems(d, ImageOf)[..|d| - 1] == GuiItems(init, ImageOf);
      assert GuiItems(d, IsImage)[..|d| - 1] == GuiItems(init, IsImage);
      assert GuiItems(d, NameOf)[..|d| - 1] == GuiItems(init, NameOf);
    }
  }

  /** A placeholder extra (`'img': None`) adds nothing to either list. */
  lemma ExtrasDropped(d: Dict<Name, Entry>, extra: Name)
    ensures ImgObjects(d + [(extra, Entry(None, extra))]) == ImgObjects(d)
    ensures ImgObjNames(d + [(extra, Entry(None, extra))]) == ImgObjNames(d)
  {
    var d' := d + [(extra, Entry(None, extra))];
    assert d'[..|d'| - 1] == d;
    assert GuiItems(d', ImageOf)[..|d|] == GuiItems(d, ImageOf);
    assert GuiItems(d', IsImage)[..|d|] == GuiItems(d, IsImage);
    assert GuiItems(d', NameOf)[..|d|] == GuiItems(d, NameOf);
  }

  /** Because the lists are aligned, the engine's correlation table built from
      them never raises, and it has a row for every loaded component. */
  lemma RunAnalysisTable(ica: Dict<Name, Entry>, rsn: Dict<Name, Entry>, o: Oracles)
    requires o.Valid()
    ensures var r := SpatialCorrelations(ImgObjects(ica), ImgObjects(rsn), ImgObjNames(ica), ImgObjNames(rsn), o);
      && r.Success?
      && forall n :: n in Keys(r.value) <==> n in ImgObjNames(ica)
  {
    ImgObjectsAligned(ica);
    ImgObjectsAligned(rsn);
    assert ImgObjNames(ica)[..|ImgObjects(ica)|] == ImgObjNames(ica);
  }
}

=== FILE: naming.dfy ===
/** Display names of mappings in the GUI: a mapping is shown as
    `"<ica name> > <rsn name>"` and read back with `text.split(' > ')` and a
    two-way unpacking. */
module Naming {
  import opened Wrappers

  /** The separator of a display name. */
  const Sep: string := " > "

  /** The separator starts at position `j` of `s`. */
  predicate At(s: string, j: int)
  {
    0 <= j && j + 3 <= |s| && s[j..j + 3] == Sep
  }

  predicate Contains(s: string)
  {
    exists j :: 0 <= j < |s| && At(s, j)
  }

  /** A text without `>` holds no separator. */
  lemma NoSepWithoutGt(s: string)
    requires '>' !in s
    ensures !Contains(s)
  {
    forall j | 0 <= j < |s|
      ensures !At(s, j)
    {
      if j + 3 <= |s| {
        assert s[j..j + 3][1] == s[j + 1] != '>';
      }
    }
  }

  /** `s` ends with the first two characters of the separator, so that the
      separator's space completes it. */
  predicate EndsWithHalfSep(s: string)
  {
    |s| >= 2 && s[|s| - 2..] == " >"
  }

  /** `"%s > %s" % (a, b)`. */
  function Join(a: string, b: string): (s: string)
    ensures |s| == |a| + 3 + |b|
    ensures s[..|a|] == a && At(s, |a|) && s[|a| + 3..] == b
  {
    a + Sep + b
  }

  /** The first occurrence of the separator at or after `from`. */
  function FindFrom(s: string, from: nat): (r: Option<nat>)
    ensures r.Some? ==> from <= r.value && At(s, r.value)
    ensures r.Some? ==> forall j :: from <= j < r.value ==> !At(s, j)
    ensures r.None? ==> forall j :: from <= j ==> !At(s, j)
    decreases |s| - from
  {
    if from + 3 > |s| then None
    else if s[from..from + 3] == Sep then Some(from)
    else FindFrom(s, from + 1)
  }

  /** `s.split(' > ')`: the pieces between the occurrences of the separator,
      which are found left to right without overlapping. */
  function Split(s: string): (parts: seq<string>)
    ensures |parts| >= 1
    ensures forall p :: p in parts ==> !Contains(p)
    decreases |s|
  {
    match FindFrom(s, 0)
    case None => [s]
    case Some(i) =>
      var head := s[..i];
      assert !Contains(head) by {
        forall j | 0 <= j < |head| && At(head, j) ensures false {
          assert s[j..j + 3] == head[j..j + 3];
          assert At(s, j);
        }
      }
      [head] + Split(s[i + 3..])
  }

  /** `' > '.join(parts)`. */
  function JoinAll(parts: seq<string>): string
    requires |parts| >= 1
  {
    if |parts| == 1 then parts[0] else parts[0] + Sep + JoinAll(parts[1..])
  }

  /** Joining the pieces of a split gives back the text. */
  lemma {:induction false} SplitJoinAll(s: string)
    ensures JoinAll(Split(s)) == s
    decreases |s|
  {
    match FindFrom(s, 0)
    case None =>
    case Some(i) =>
      SplitJoinAll(s[i + 3..]);
      var parts := Split(s);
      assert parts[1..] == Split(s[i + 3..]);
      assert s == s[..i] + Sep + s[i + 3..];
  }

  /** A text without the separator is one piece, and one with it is several. */
  lemma SplitOne(s: string)
    ensures |Split(s)| == 1 <==> !Contains(s)
  {
    if Contains(s) {
      var j :| At(s, j);
    }
  }

  /** `ica, rsn = text.split(' > ')`: unpacking raises unless there are
      exactly two pieces. */
  function Unpack(s: string): (r: Option<(string, string)>)
    ensures r.Some? ==> Join(r.value.0, r.value.1) == s
    ensures r.Some? ==> !Contains(r.value.0) && !Contains(r.value.1)
  {
    var parts := Split(s);
    if |parts| == 2 then
      SplitJoinAll(s);
      assert JoinAll(parts) == parts[0] + Sep + parts[1];
      Some((parts[0], parts[1]))
    else None
  }

  /** Under the two conditions on `a`, the first separator of `Join(a, b)` is
      the one `Join` put there. */
  lemma FirstSepOfJoin(a: string, b: string)
    requires !Contains(a) && !EndsWithHalfSep(a)
    ensures FindFrom(Join(a, b), 0) == Some(|a|)
  {
    var s := Join(a, b);
    forall j | 0 <= j < |a| ensures !At(s, j) {
      if j + 3 <= |a| {
        assert s[j..j + 3] == a[j..j + 3];
        assert !At(a, j);
      } else {
        AtChars(s, j);
        AtChars(s, |a|);
        if j == |a| - 2 {
          HalfSepChars(a);
        }
      }
    }
  }

  /** The separator, character by character. */
  lemma AtChars(s: string, j: nat)
    requires j + 3 <= |s|
    ensures At(s, j) <==> s[j] == ' ' && s[j + 1] == '>' && s[j + 2] == ' '
  {
    assert s[j..j + 3] == [s[j], s[j + 1], s[j + 2]];
  }

  lemma HalfSepChars(s: string)
    requires |s| >= 2
    ensures EndsWithHalfSep(s) <==> s[|s| - 2] == ' ' && s[|s| - 1] == '>'
  {
    assert s[|s| - 2..] == [s[|s| - 2], s[|s| - 1]];
  }

  /** Building a display name and unpacking it gives back the two names
      exactly when neither contains the separator and the first does not end
      in `" >"`. */
  lemma UnpackJoin(a: string, b: string)
    ensures Unpack(Join(a, b)) == Some((a, b)) <==> !Contains(a) && !EndsWithHalfSep(a) && !Contains(b)
  {
    var s := Join(a, b);
    if !Contains(a) && !EndsWithHalfSep(a) && !Contains(b) {
      FirstSepOfJoin(a, b);
      SplitOne(b);
      assert Split(s) == [a] + Split(b);
    }
    if Unpack(s) == Some((a, b)) {
      var parts := Split(s);
      var i := FindFrom(s, 0).value;
      assert parts[0] == s[..i] == a;
      assert i == |a|;
      if EndsWithHalfSep(a) {
        assert s[|a| - 2..|a| + 1] == a[|a| - 2..] + " ";
        assert At(s, |a| - 2);
      }
    }
  }

  /** A first name ending in `" >"` unpacks into the wrong pair without
      raising. */
  lemma UnpackJoinMisreads()
    ensures Unpack(Join("x >", "y")) == Some(("x", "> y"))
  {
    var s := Join("x >", "y");
    assert s == "x > > y";
    assert s[1..4] == Sep;
    assert s[0..3] != Sep;
    assert FindFrom(s, 0) == Some(1);
    assert s[..1] == "x" && s[1 + 3..] == "> y";
    assert !Contains("> y") by {
      assert "> y"[0..3] != Sep;
    }
    SplitOne("> y");
    assert Split(s) == ["x"] + Split("> y");
    assert Split(s) == ["x", "> y"];
  }
}

=== FILE: overlap.dfy ===
/** Localising the overlap of a component with a template
    (`Mapper.find_max_coords`): the first voxel where the product of the
    prepared arrays peaks, in world coordinates; with a `top3` dict, only the
    components and templates it lists. */
module Overlap {
  import opened Wrappers
  import opened Assoc
  import opened Vectors
  import opened Volumes
  import opened Mapper

  /** No name occurs twice. */
  predicate Distinct(names: seq<Name>)
  {
    forall i, j :: 0 <= i < j < |names| ==> names[i] != names[j]
  }

  /** `[x for i, x in enumerate(xs) if names[i] in keep]`. */
  function KeepItems<T>(xs: seq<T>, names: seq<Name>, keep: seq<Name>): (r: seq<T>)
    requires |xs| <= |names|
    ensures |r| <= |xs|
  {
    if xs == [] then []
    else (if names[0] in keep then [xs[0]] else []) + KeepItems(xs[1..], names[1..], keep)
  }

  /** `[name for name in names if name in keep]`. */
  function KeepNames(names: seq<Name>, keep: seq<Name>): (r: seq<Name>)
    ensures |r| <= |names|
    ensures forall n :: n in r ==> n in names && n in keep
  {
    if names == [] then []
    else (if names[0] in keep then [names[0]] else []) + KeepNames(names[1..], keep)
  }

  /** The two filters stay index-aligned: the item at position `i` of the
      input, when kept, lands at the same position of both results as its
      name. */
  lemma KeepAt<T>(xs: seq<T>, names: seq<Name>, keep: seq<Name>, i: nat)
    requires |xs| <= |names| && i < |xs| && names[i] in keep
    ensures var t := |KeepNames(names[..i], keep)|;
      && t < |KeepItems(xs, names, keep)| && KeepItems(xs, names, keep)[t] == xs[i]
      && t < |KeepNames(names, keep)| && KeepNames(names, keep)[t] == names[i]
  {
    KeepItemsAt(xs, names, keep, i);
    KeepNamesAt(names, keep, i);
  }

  lemma {:induction false} KeepItemsAt<T>(xs: seq<T>, names: seq<Name>, keep: seq<Name>, i: nat)
    requires |xs| <= |names| && i < |xs| && names[i] in keep
    ensures var t := |KeepNames(names[..i], keep)|;
      t < |KeepItems(xs, names, keep)| && KeepItems(xs, names, keep)[t] == xs[i]
  {
    var headItem := if names[0] in keep then [xs[0]] else [];
    var restItems := KeepItems(xs[1..], names[1..], keep);
    assert KeepItems(xs, names, keep) == headItem + restItems;
    if i == 0 {
      assert names[..0] == [];
    } else {
      KeepItemsAt(xs[1..], names[1..], keep, i - 1);
      KeepNamesPrefix(names, keep, i);
      var t' := |KeepNames(names[1..][..i - 1], keep)|;
      assert (headItem + restItems)[|headItem| + t'] == restItems[t'];
    }
  }

  lemma {:induction false} KeepNamesAt(names: seq<Name>, keep: seq<Name>, i: nat)
    requires i < |names| && names[i] in keep
    ensures var t := |KeepNames(names[..i], keep)|;
      t < |KeepNames(names, keep)| && KeepNames(names, keep)[t] == names[i]
  {
    var head := if names[0] in keep then [names[0]] else [];
    var restNames := KeepNames(names[1..], keep);
    assert KeepNames(names, keep) == head + restNames;
    if i == 0 {
      assert names[..0] == [];
    } else {
      KeepNamesAt(names[1..], keep, i - 1);
      KeepNamesPrefix(names, keep, i);
      var t' := |KeepNames(names[1..][..i - 1], keep)|;
      assert (head + restNames)[|head| + t'] == restNames[t'];
    }
  }

  /** How many of the first `i` names are kept, counted from the second. */
  lemma KeepNamesPrefix(names: seq<Name>, keep: seq<Name>, i: nat)
    requires 0 < i <= |names|
    ensures |KeepNames(names[..i], keep)| ==
      (if names[0] in keep then 1 else 0) + |KeepNames(names[1..][..i - 1], keep)|
  {
    var before := names[1..][..i - 1];
    assert names[..i] == [names[0]] + before;
    assert ([names[0]] + before)[1..] == before;
  }

  /** As many items are kept as names among the first `|xs|`. */
  lemma {:induction false} KeepLength<T>(xs: seq<T>, names: seq<Name>, keep: seq<Name>)
    requires |xs| <= |names|
    ensures |KeepItems(xs, names, keep)| == |KeepNames(names[..|xs|], keep)| <= |KeepNames(names, keep)|
  {
    if xs != [] {
      KeepLength(xs[1..], names[1..], keep);
      assert names[..|xs|] == [names[0]] + names[1..][..|xs| - 1];
      assert ([names[0]] + names[1..][..|xs| - 1])[1..] == names[1..][..|xs| - 1];
    } else {
      KeepPrefixLength(names, keep);
    }
  }

  lemma KeepPrefixLength(names: seq<Name>, keep: seq<Name>)
    ensures |KeepNames(names[..0], keep)| <= |KeepNames(names, keep)|
  {
    assert names[..0] == [];
  }

  /** Filtering keeps distinct names distinct. */
  lemma {:induction false} KeepDistinct(names: seq<Name>, keep: seq<Name>)
    requires Distinct(names)
    ensures Distinct(KeepNames(names, keep))
  {
    if names != [] {
      KeepDistinct(names[1..], keep);
      var rest := KeepNames(names[1..], keep);
      assert names[0] !in names[1..];
      assert names[0] !in rest;
    }
  }

  /** `img_arr * map_arr`: the thresholded component times the binarised
      template, voxel by voxel. */
  function OverlapArray(img: Volume, mimg: Volume, o: Oracles): (p: seq<real>)
    requires o.Valid()
    ensures |p| == |img.data|
  {
    Product(InputArray(img, o), TemplateArray(mimg, img, o))
  }

  /** `np.unravel_index(argmax(img_arr * map_arr), img.shape)`: the voxel of
      largest overlap, the first one in C order when several tie. */
  function MaxVoxel(img: Volume, mimg: Volume, o: Oracles): (v: Voxel)
    requires o.Valid() && img.Valid() && |img.data| > 0
    ensures InBounds(v, img.shape)
    ensures var p := OverlapArray(img, mimg, o);
      && (forall w :: InBounds(w, img.shape) ==> ValueAt(p, img.shape, w) <= ValueAt(p, img.shape, v))
      && (forall w :: InBounds(w, img.shape) && Ravel(w, img.shape) < Ravel(v, img.shape) ==>
            ValueAt(p, img.shape, w) < ValueAt(p, img.shape, v))
  {
    var p := OverlapArray(img, mimg, o);
    var v := Unravel(ArgMax(p), img.shape);
    forall w | InBounds(w, img.shape) ensures ValueAt(p, img.shape, w) <= ValueAt(p, img.shape, v) {
      RavelInBounds(w, img.shape);
    }
    v
  }

  /** A voxel whose overlap is strictly larger than at every other voxel is
      the one found. */
  lemma MaxVoxelUnique(img: Volume, mimg: Volume, o: Oracles, v: Voxel)
    requires o.Valid() && img.Valid() && |img.data| > 0 && InBounds(v, img.shape)
    requires var p := OverlapArray(img, mimg, o);
      forall w :: InBounds(w, img.shape) && w != v ==> ValueAt(p, img.shape, w) < ValueAt(p, img.shape, v)
    ensures MaxVoxel(img, mimg, o) == v
  {
    PeakVoxel(OverlapArray(img, mimg, o), img.shape, v);
  }

  lemma PeakVoxel(p: seq<real>, s: Shape, v: Voxel)
    requires |p| == s.Size() && InBounds(v, s)
    requires forall w :: InBounds(w, s) && w != v ==> ValueAt(p, s, w) < ValueAt(p, s, v)
    ensures |p| > 0 && Unravel(ArgMax(p), s) == v
  {
    UnravelRavel(v, s);
    var k := Ravel(v, s);
    forall j | 0 <= j < |p| && j != k ensures p[j] < p[k] {
      var w := Unravel(j, s);
      assert ValueAt(p, s, w) < ValueAt(p, s, v);
    }
    ArgMaxUnique(p, k);
  }

  /** `apply_affine(img.affine, voxel_coords)` at the voxel of largest
      overlap. */
  function MaxPoint(img: Volume, mimg: Volume, o: Oracles): (p: Point)
    requires o.Valid() && img.Valid() && |img.data| > 0
    ensures var v := MaxVoxel(img, mimg, o);
      img.affine == Identity ==> p == Point(v.i as real, v.j as real, v.k as real)
  {
    ApplyAffine(img.affine, MaxVoxel(img, mimg, o))
  }

  /** The `top3` argument: `None` or a dict from component names to their
      top templates. */
  type Top3 = Option<Dict<Name, Row>>

  /** `if top3:` — `None` and the empty dict select everything. */
  predicate Selecting(top3: Top3)
  {
    top3.Some? && |top3.value| > 0
  }

  /** The inner loop for one component: the max-overlap point of every
      template it is paired with.  The first `argmax` raises on an empty
      array before any template name is read. */
  function PairRow(img: Volume, maps: seq<Volume>, names: seq<Name>, o: Oracles): (r: Result<Dict<Name, Point>, MapperError>)
    requires o.Valid() && img.Valid()
    ensures r.Success? <==> |maps| == 0 || (|img.data| > 0 && |maps| <= |names|)
    ensures r.Success? ==> forall m :: m in Keys(r.value) <==> m in names[..|maps|]
  {
    if |maps| == 0 then Success([])
    else if |img.data| == 0 then Failure(EmptyArray)
    else if |maps| > |names| then Failure(IndexError)
    else Success(Tabulate(names, |maps|, ii requires 0 <= ii < |maps| => MaxPoint(img, maps[ii], o)))
  }

  /** One component's row of `find_max_coords`: with `top3`, only the
      templates listed for this component. */
  function CoordRow(img: Volume, name: Name, mapImgs: seq<Volume>, mapNames: seq<Name>, top3: Top3,
                    o: Oracles): (r: Result<Dict<Name, Point>, MapperError>)
    requires o.Valid() && img.Valid()
    ensures Selecting(top3) && r.Success? ==> name in Keys(top3.value) && forall m :: m in Keys(r.value) ==>
              m in mapNames && m in Keys(Get(top3.value, name).value)
    ensures !Selecting(top3) && r.Success? ==> forall m :: m in Keys(r.value) ==> m in mapNames
  {
    if Selecting(top3) then
      match Get(top3.value, name)
      case None => Failure(MissingRow(name))
      case Some(sel) =>
        if |mapImgs| > |mapNames| then Failure(IndexError)
        else
          var maps := KeepItems(mapImgs, mapNames, Keys(sel));
          var names := KeepNames(mapNames, Keys(sel));
          KeepLength(mapImgs, mapNames, Keys(sel));
          PairRow(img, maps, names, o)
    else PairRow(img, mapImgs, mapNames, o)
  }

  /** The components `find_max_coords` visits and their names. */
  function Visited(imgs: seq<Volume>, imgNames: seq<Name>, top3: Top3): (r: (seq<Volume>, seq<Name>))
    requires Selecting(top3) ==> |imgs| <= |imgNames|
    ensures forall img :: img in r.0 ==> img in imgs
  {
    if Selecting(top3) then
      var kept := KeepItems(imgs, imgNames, Keys(top3.value));
      assert forall img :: img in kept ==> img in imgs by {
        KeepItemsIn(imgs, imgNames, Keys(top3.value));
      }
      (kept, KeepNames(imgNames, Keys(top3.value)))
    else (imgs, imgNames)
  }

  lemma {:induction false} KeepItemsIn<T>(xs: seq<T>, names: seq<Name>, keep: seq<Name>)
    requires |xs| <= |names|
    ensures forall x :: x in KeepItems(xs, names, keep) ==> x in xs
  {
    if xs != [] {
      KeepItemsIn(xs[1..], names[1..], keep);
    }
  }

  /** The row each visited component produces, or the exception it raises;
      a component without a name raises an IndexError. */
  function VisitRows(vImgs: seq<Volume>, vNames: seq<Name>, mapImgs: seq<Volume>, mapNames: seq<Name>,
                     top3: Top3, o: Oracles): (rows: seq<Result<Dict<Name, Point>, MapperError>>)
    requires o.Valid() && forall img :: img in vImgs ==> img.Valid()
    ensures |rows| == |vImgs|
    ensures forall t :: 0 <= t < |rows| && t >= |vNames| ==> rows[t] == Failure(IndexError)
    ensures forall t :: 0 <= t < |rows| && rows[t].Success? ==> t < |vNames|
  {
    seq(|vImgs|, t requires 0 <= t < |vImgs| =>
      if t < |vNames| then CoordRow(vImgs[t], vNames[t], mapImgs, mapNames, top3, o) else Failure(IndexError))
  }

  /** `Mapper.find_max_coords(imgs, map_imgs, img_names, map_names, top3)`. */
  function FindMaxCoords(imgs: seq<Volume>, mapImgs: seq<Volume>, imgNames: seq<Name>, mapNames: seq<Name>,
                         top3: Top3, o: Oracles): (r: Result<Dict<Name, Dict<Name, Point>>, MapperError>)
    requires o.Valid() && forall img :: img in imgs ==> img.Valid()
    ensures |imgs| > |imgNames| ==> r.Failure?
    ensures r.Success? ==> UniqueKeys(r.value)
    ensures r.Success? ==> forall n :: n in Keys(r.value) ==> n in imgNames
  {
    if Selecting(top3) && |imgs| > |imgNames| then Failure(IndexError)
    else
      var (vImgs, vNames) := Visited(imgs, imgNames, top3);
      var rows := VisitRows(vImgs, vNames, mapImgs, mapNames, top3, o);
      match FirstFailure(rows)
      case Some(err) => Failure(err)
      case None =>
        assert |vImgs| > 0 ==> rows[|vImgs| - 1].Success?;
        var t := Tabulate(vNames, |vImgs|, i requires 0 <= i < |vImgs| => rows[i].value);
        Success(t)
  }

  /** Which (component, template) pairs `find_max_coords` covers. */
  predicate Selected(i: nat, ii: nat, imgNames: seq<Name>, mapNames: seq<Name>, top3: Top3)
    requires i < |imgNames| && ii < |mapNames|
  {
    !Selecting(top3) ||
      (imgNames[i] in Keys(top3.value) && mapNames[ii] in Keys(Get(top3.value, imgNames[i]).value))
  }

  /** With distinct template names, each template of a successful row maps to
      its max-overlap point. */
  lemma PairRowCell(img: Volume, maps: seq<Volume>, names: seq<Name>, o: Oracles, ii: nat)
    requires o.Valid() && img.Valid()
    requires PairRow(img, maps, names, o).Success?
    requires ii < |maps| && Distinct(names)
    ensures |img.data| > 0 && ii < |names|
    ensures Get(PairRow(img, maps, names, o).value, names[ii]) == Some(MaxPoint(img, maps[ii], o))
  {
    TabulateLast(names, |maps|, jj requires 0 <= jj < |maps| => MaxPoint(img, maps[jj], o), ii);
  }

  /** A successful row holds the max-overlap point of every template it
      selects. */
  lemma CoordRowCell(img: Volume, name: Name, mapImgs: seq<Volume>, mapNames: seq<Name>, top3: Top3,
                     o: Oracles, ii: nat)
    requires o.Valid() && img.Valid()
    requires CoordRow(img, name, mapImgs, mapNames, top3, o).Success?
    requires ii < |mapImgs| && ii < |mapNames| && Distinct(mapNames)
    requires Selecting(top3) ==> name in Keys(top3.value) && mapNames[ii] in Keys(Get(top3.value, name).value)
    ensures |img.data| > 0
    ensures Get(CoordRow(img, name, mapImgs, mapNames, top3, o).value, mapNames[ii]) == Some(MaxPoint(img, mapImgs[ii], o))
  {
    if Selecting(top3) {
      var sel := Get(top3.value, name).value;
      var maps := KeepItems(mapImgs, mapNames, Keys(sel));
      var names := KeepNames(mapNames, Keys(sel));
      KeepAt(mapImgs, mapNames, Keys(sel), ii);
      KeepDistinct(mapNames, Keys(sel));
      PairRowCell(img, maps, names, o, |KeepNames(mapNames[..ii], Keys(sel))|);
    } else {
      PairRowCell(img, mapImgs, mapNames, o, ii);
    }
  }

  /** With distinct names, a successful `find_max_coords` maps every selected
      (component, template) pair to the world coordinates of its largest
      overlap. */
  lemma FindMaxCoordsCell(imgs: seq<Volume>, mapImgs: seq<Volume>, imgNames: seq<Name>, mapNames: seq<Name>,
                          top3: Top3, o: Oracles, i: nat, ii: nat)
    requires o.Valid() && forall img :: img in imgs ==> img.Valid()
    requires FindMaxCoords(imgs, mapImgs, imgNames, mapNames, top3, o).Success?
    requires Distinct(imgNames) && Distinct(mapNames)
    requires i < |imgs| && i < |imgNames| && ii < |mapImgs| && ii < |mapNames|
    requires Selected(i, ii, imgNames, mapNames, top3)
    ensures |imgs[i].data| > 0
    ensures var r := FindMaxCoords(imgs, mapImgs, imgNames, mapNames, top3, o).value;
      && imgNames[i] in Keys(r)
      && Get(Get(r, imgNames[i]).value, mapNames[ii]) == Some(MaxPoint(imgs[i], mapImgs[ii], o))
  {
    var (vImgs, vNames) := Visited(imgs, imgNames, top3);
    var rows := VisitRows(vImgs, vNames, mapImgs, mapNames, top3, o);
    var t: nat := i;
    if Selecting(top3) {
      t := |KeepNames(imgNames[..i], Keys(top3.value))|;
      KeepAt(imgs, imgNames, Keys(top3.value), i);
      KeepDistinct(imgNames, Keys(top3.value));
    }
    assert t < |vImgs| && vImgs[t] == imgs[i] && vNames[t] == imgNames[i];
    assert rows[t].Success?;
    TabulateLast(vNames, |vImgs|, k requires 0 <= k < |vImgs| => rows[k].value, t);
    CoordRowCell(imgs[i], imgNames[i], mapImgs, mapNames, top3, o, ii);
  }

  /** Without a selecting `top3`, every component and template is visited,
      and nothing raises when the name lists are long enough and no visited
      component is empty. */
  lemma FindMaxCoordsSucceeds(imgs: seq<Volume>, mapImgs: seq<Volume>, imgNames: seq<Name>, mapNames: seq<Name>,
                              top3: Top3, o: Oracles)
    requires o.Valid() && forall img :: img in imgs ==> img.Valid()
    requires !Selecting(top3) && |imgs| <= |imgNames| && |mapImgs| <= |mapNames|
    requires |mapImgs| == 0 || forall img :: img in imgs ==> |img.data| > 0
    ensures FindMaxCoords(imgs, mapImgs, imgNames, mapNames, top3, o).Success?
  {
    var rows := VisitRows(imgs, imgNames, mapImgs, mapNames, top3, o);
    forall t | 0 <= t < |rows| ensures rows[t].Success? {
      assert imgs[t] in imgs;
    }
  }

  /** Only selected pairs appear: every component name is a listed name (a
      key of `top3` when it selects) and every template name of its row is a
      listed template (one of that component's `top3` templates). */
  lemma FindMaxCoordsOnlySelected(imgs: seq<Volume>, mapImgs: seq<Volume>, imgNames: seq<Name>, mapNames: seq<Name>,
                                  top3: Top3, o: Oracles, p: (Name, Dict<Name, Point>))
    requires o.Valid() && forall img :: img in imgs ==> img.Valid()
    requires FindMaxCoords(imgs, mapImgs, imgNames, mapNames, top3, o).Success?
    requires p in FindMaxCoords(imgs, mapImgs, imgNames, mapNames, top3, o).value
    ensures p.0 in imgNames
    ensures Selecting(top3) ==> p.0 in Keys(top3.value)
    ensures forall m :: m in Keys(p.1) ==> m in mapNames
    ensures Selecting(top3) ==> forall m :: m in Keys(p.1) ==> m in Keys(Get(top3.value, p.0).value)
  {
    var (vImgs, vNames) := Visited(imgs, imgNames, top3);
    var rows := VisitRows(vImgs, vNames, mapImgs, mapNames, top3, o);
    var f := k requires 0 <= k < |vImgs| => rows[k].value;
    KeyOfItem(FindMaxCoords(imgs, mapImgs, imgNames, mapNames, top3, o).value, p);
    TabulateItem(vNames, |vImgs|, f, p);
    var t :| 0 <= t < |vImgs| && p == (vNames[t], f(t));
    assert rows[t] == CoordRow(vImgs[t], vNames[t], mapImgs, mapNames, top3, o);
  }
}

=== FILE: prep.dfy ===
/** Volume preparation (`Mapper.prep_tmap`): choose the image, flatten it
    (resampled onto a reference grid when one is given), optionally centre and
    scale its nonzero voxels, then optionally threshold it, either into a
    binary mask or by zeroing the voxels below the threshold.

    Resampling and the sample standard deviation are computed by library code
    and enter the model as function parameters. */
module Prep {
  import opened Wrappers
  import opened Vectors
  import opened Volumes

  /** The keyword arguments `center`, `scale`, `threshold` and `binary`;
      `threshold` is `None` or a number. */
  datatype Options = Options(center: bool, scale: bool, threshold: Option<real>, binary: bool)

  /** Default `threshold` of `prep_tmap`. */
  const DefaultThreshold: real := 0.2

  /** `prep_tmap(mimg, reference=img)`: templates are resampled and binarised
      at the default threshold. */
  const TemplateOptions: Options := Options(false, false, Some(DefaultThreshold), true)

  /** `prep_tmap(img, scale=True, threshold=1, binary=False)`: components are
      scaled and their entries below 1 zeroed. */
  const InputOptions: Options := Options(false, true, Some(1.0), false)

  /** `ndarray.std(ddof=1)` of the nonzero entries: a positive divisor. */
  type StdDev = seq<real> -> real

  ghost predicate PositiveStd(sd: StdDev)
  {
    forall xs :: sd(xs) > 0.0
  }

  /** `image.resample_to_img(source_img, target_img).get_data().flatten()`. */
  type Resampler = (Volume, Volume) -> seq<real>

  /** Resampling yields one value per voxel of the target grid. */
  ghost predicate OntoGrid(resample: Resampler)
  {
    forall src, target :: |resample(src, target)| == |target.data|
  }

  /** `if threshold:`: `None` and `0` switch thresholding off. */
  predicate Truthy(t: Option<real>)
  {
    t.Some? && t.value != 0.0
  }

  /** `center`: subtract the mean of the nonzero entries from each of them.
      Zeros stay zero, the nonzero entries move by one common offset, and the
      result sums to zero. */
  function Center(xs: seq<real>): (r: seq<real>)
    ensures |r| == |xs|
    ensures forall i :: 0 <= i < |xs| && xs[i] == 0.0 ==> r[i] == 0.0
    ensures forall i, j :: 0 <= i < |xs| && 0 <= j < |xs| && xs[i] != 0.0 && xs[j] != 0.0 ==>
              r[i] - r[j] == xs[i] - xs[j]
    ensures Sum(r) == 0.0
  {
    var nz := NonZeros(xs);
    SumNonZeros(xs);
    if |nz| == 0 then
      assert Sum(xs) == 0.0;
      xs
    else
      ShiftByMeanSum(xs);
      Shift(xs, Mean(nz))
  }

  /** `scale`: divide the nonzero entries by `sd`.  Multiplying back by `sd`
      recovers the input, so zeros stay zero and nothing else becomes zero. */
  function Scale(xs: seq<real>, sd: real): (r: seq<real>)
    requires sd > 0.0
    ensures |r| == |xs|
    ensures forall i :: 0 <= i < |xs| ==> r[i] * sd == xs[i]
    ensures forall i :: 0 <= i < |xs| ==> (r[i] == 0.0 <==> xs[i] == 0.0)
  {
    seq(|xs|, i requires 0 <= i < |xs| => if xs[i] != 0.0 then xs[i] / sd else xs[i])
  }

  /** `threshold` with `binary=True`: first `dat[dat >= t] = 1.`, then
      `dat[dat < t] = 0.`.  The second write sees the first, so an entry ends
      at 1 exactly when it was at least `t` and 1 is at least `t`. */
  function Binarize(xs: seq<real>, t: real): (r: seq<real>)
    ensures |r| == |xs|
    ensures forall i :: 0 <= i < |xs| ==> r[i] == (if xs[i] >= t && 1.0 >= t then 1.0 else 0.0)
    ensures t > 1.0 ==> forall i :: 0 <= i < |xs| ==> r[i] == 0.0
    ensures t <= 1.0 ==> forall i :: 0 <= i < |xs| ==> (r[i] == 0.0 || r[i] == 1.0) && (r[i] == 1.0 <==> xs[i] >= t)
  {
    var marked := seq(|xs|, i requires 0 <= i < |xs| => if xs[i] >= t then 1.0 else xs[i]);
    seq(|marked|, i requires 0 <= i < |marked| => if marked[i] < t then 0.0 else marked[i])
  }

  /** `threshold` with `binary=False`: `dat[dat < t] = 0.`; entries at or
      above `t` keep their value. */
  function Truncate(xs: seq<real>, t: real): (r: seq<real>)
    ensures |r| == |xs|
    ensures forall i :: 0 <= i < |xs| ==> if xs[i] < t then r[i] == 0.0 else r[i] == xs[i]
  {
    seq(|xs|, i requires 0 <= i < |xs| => if xs[i] < t then 0.0 else xs[i])
  }

  /** The centring and scaling steps of `prep_tmap`; scaling divides by the
      deviation of the entries that are nonzero after centring. */
  function Standardize(xs: seq<real>, opts: Options, sd: StdDev): (r: seq<real>)
    requires opts.scale ==> PositiveStd(sd)
    ensures |r| == |xs|
    ensures forall i :: 0 <= i < |xs| && xs[i] == 0.0 ==> r[i] == 0.0
    ensures !opts.center && !opts.scale ==> r == xs
  {
    var c := if opts.center then Center(xs) else xs;
    if opts.scale then Scale(c, sd(NonZeros(c))) else c
  }

  /** `prep_tmap` on an already flattened array. */
  function PrepArray(xs: seq<real>, opts: Options, sd: StdDev): (r: seq<real>)
    requires opts.scale ==> PositiveStd(sd)
    ensures |r| == |xs|
    ensures !Truthy(opts.threshold) ==> r == Standardize(xs, opts, sd)
    ensures Truthy(opts.threshold) && opts.binary ==>
              var s := Standardize(xs, opts, sd);
              forall i :: 0 <= i < |xs| ==> r[i] == (if s[i] >= opts.threshold.value && 1.0 >= opts.threshold.value then 1.0 else 0.0)
    ensures Truthy(opts.threshold) && !opts.binary ==>
              var s := Standardize(xs, opts, sd);
              forall i :: 0 <= i < |xs| ==> if s[i] < opts.threshold.value then r[i] == 0.0 else r[i] == s[i]
  {
    var s := Standardize(xs, opts, sd);
    if Truthy(opts.threshold) then
      if opts.binary then Binarize(s, opts.threshold.value) else Truncate(s, opts.threshold.value)
    else s
  }

  datatype PrepError = InvalidImage

  /** The image `prep_tmap` works on: the image itself, or the reference when
      no image is given; with neither, `image.load_img(None)` raises. */
  function SourceImage(img: Option<Volume>, reference: Option<Volume>): (r: Result<Volume, PrepError>)
    ensures r.Success? <==> img.Some? || reference.Some?
    ensures img.Some? ==> r == Success(img.value)
  {
    if img.Some? then Success(img.value)
    else if reference.Some? then Success(reference.value)
    else Failure(InvalidImage)
  }

  /** `Mapper.prep_tmap(img, reference, center, scale, threshold, binary)`. */
  function PrepVolume(img: Option<Volume>, reference: Option<Volume>, opts: Options,
                      resample: Resampler, sd: StdDev): (r: Result<seq<real>, PrepError>)
    requires opts.scale ==> PositiveStd(sd)
    ensures r.Success? <==> img.Some? || reference.Some?
    ensures r.Success? && reference.Some? && OntoGrid(resample) ==> |r.value| == |reference.value.data|
    ensures r.Success? && reference.None? ==> |r.value| == |img.value.data|
    ensures r.Success? && reference.None? ==> r.value == PrepArray(img.value.data, opts, sd)
    ensures r.Success? && reference.Some? ==>
              r.value == PrepArray(resample(if img.Some? then img.value else reference.value, reference.value), opts, sd)
  {
    var src :- SourceImage(img, reference);
    var flat := if reference.Some? then resample(src, reference.value) else src.data;
    Success(PrepArray(flat, opts, sd))
  }
}

=== FILE: ranking.dfy ===
/** Ranking a row of (template, score) items, as `Mapper.get_top_matches`
    does: `list.sort(key=score, reverse=True)`, which is stable, followed by an
    optional `[0:n]` slice. */
module Ranking {
  import opened Wrappers
  import opened Vectors

  /** Non-increasing by score. */
  ghost predicate SortedDesc<K>(xs: seq<(K, real)>)
  {
    forall i, j :: 0 <= i < j < |xs| ==> xs[i].1 >= xs[j].1
  }

  /** The items whose score is exactly `s`, in their order in `xs`.  A sort is
      stable when it keeps each of these subsequences as it was. */
  function WithScore<K>(xs: seq<(K, real)>, s: real): seq<(K, real)>
  {
    if xs == [] then []
    else (if xs[0].1 == s then [xs[0]] else []) + WithScore(xs[1..], s)
  }

  function Scores<K>(xs: seq<(K, real)>): (r: seq<real>)
    ensures |r| == |xs|
  {
    seq(|xs|, i requires 0 <= i < |xs| => xs[i].1)
  }

  lemma WithScoreCons<K>(x: (K, real), ys: seq<(K, real)>, s: real)
    ensures WithScore([x] + ys, s) == (if x.1 == s then [x] else []) + WithScore(ys, s)
  {
    assert ([x] + ys)[1..] == ys;
  }

  /** Insert `x` into a sorted list in front of the first item that does not
      score strictly higher, so that it precedes the items it ties with. */
  function Insert<K(==)>(x: (K, real), ys: seq<(K, real)>): (r: seq<(K, real)>)
    requires SortedDesc(ys)
    ensures |r| == |ys| + 1
    ensures SortedDesc(r)
    ensures multiset(r) == multiset{x} + multiset(ys)
  {
    if ys == [] || x.1 >= ys[0].1 then
      [x] + ys
    else
      var y := ys[0];
      var tail := ys[1..];
      SortedDescTail(ys);
      var rest := Insert(x, tail);
      assert ys == [y] + tail;
      assert forall i :: 0 <= i < |tail| ==> tail[i].1 <= y.1 by {
        forall i | 0 <= i < |tail| ensures tail[i].1 <= y.1 {
          assert tail[i] == ys[i + 1];
        }
      }
      PermScoreBound(rest, x, tail, y.1);
      PrependSorted(y, rest);
      [y] + rest
  }

  /** No item of a permutation of `[x] + tail` scores above a bound that `x`
      and every item of `tail` respect. */
  lemma PermScoreBound<K>(rest: seq<(K, real)>, x: (K, real), tail: seq<(K, real)>, b: real)
    requires multiset(rest) == multiset{x} + multiset(tail)
    requires x.1 <= b && forall i :: 0 <= i < |tail| ==> tail[i].1 <= b
    ensures forall i :: 0 <= i < |rest| ==> rest[i].1 <= b
  {
    forall i | 0 <= i < |rest| ensures rest[i].1 <= b {
      assert rest[i] in multiset(rest);
      if rest[i] != x {
        assert rest[i] in multiset(tail);
        var j :| 0 <= j < |tail| && tail[j] == rest[i];
      }
    }
  }

  /** An item scoring at least as much as every item of a sorted list can
      head it. */
  lemma PrependSorted<K>(y: (K, real), rest: seq<(K, real)>)
    requires SortedDesc(rest) && forall i :: 0 <= i < |rest| ==> rest[i].1 <= y.1
    ensures SortedDesc([y] + rest)
  {
    var r := [y] + rest;
    forall i, j | 0 <= i < j < |r| ensures r[i].1 >= r[j].1 {
      assert r[j] == rest[j - 1];
      if i > 0 {
        assert r[i] == rest[i - 1];
      }
    }
  }

  /** Inserting keeps the items of every score in their order, `x` first. */
  lemma {:induction false} InsertStable<K>(x: (K, real), ys: seq<(K, real)>, s: real)
    requires SortedDesc(ys)
    ensures WithScore(Insert(x, ys), s) == WithScore([x] + ys, s)
  {
    if ys != [] && x.1 < ys[0].1 {
      SortedDescTail(ys);
      InsertStable(x, ys[1..], s);
      InsertPast(x, ys);
      StableStep(x, ys[0], ys[1..], Insert(x, ys[1..]), s);
      assert ys == [ys[0]] + ys[1..];
    }
  }

  /** Below the head, `x` is inserted into the rest of the list. */
  lemma InsertPast<K>(x: (K, real), ys: seq<(K, real)>)
    requires SortedDesc(ys) && ys != [] && x.1 < ys[0].1
    ensures SortedDesc(ys[1..])
    ensures Insert(x, ys) == [ys[0]] + Insert(x, ys[1..])
  {
    SortedDescTail(ys);
  }

  /** Moving `x` behind an item of another score keeps each score's items
      in order. */
  lemma StableStep<K>(x: (K, real), y: (K, real), tail: seq<(K, real)>, rest: seq<(K, real)>, s: real)
    requires x.1 != y.1
    requires WithScore(rest, s) == WithScore([x] + tail, s)
    ensures WithScore([y] + rest, s) == WithScore([x] + ([y] + tail), s)
  {
    WithScoreCons(y, rest, s);
    WithScoreCons(x, tail, s);
    WithScoreCons(x, [y] + tail, s);
    WithScoreCons(y, tail, s);
  }

  lemma SortedDescTail<K>(ys: seq<(K, real)>)
    requires SortedDesc(ys) && ys != []
    ensures SortedDesc(ys[1..])
  {
    assert forall i :: 0 <= i < |ys| - 1 ==> ys[1..][i] == ys[i + 1];
  }

  /** `sorted(xs, key=score, reverse=True)`: a stable sort into non-increasing
      score order. */
  function SortDesc<K(==)>(xs: seq<(K, real)>): (r: seq<(K, real)>)
    ensures |r| == |xs|
    ensures SortedDesc(r)
    ensures multiset(r) == multiset(xs)
    ensures forall s :: WithScore(r, s) == WithScore(xs, s)
  {
    if xs == [] then []
    else
      var rest := SortDesc(xs[1..]);
      var r := Insert(xs[0], rest);
      assert xs == [xs[0]] + xs[1..];
      assert forall s :: WithScore(r, s) == WithScore(xs, s) by {
        forall s ensures WithScore(r, s) == WithScore(xs, s) {
          InsertStable(xs[0], rest, s);
          WithScoreCons(xs[0], rest, s);
          WithScoreCons(xs[0], xs[1..], s);
        }
      }
      r
  }

  /** The length of `xs[0:n]` in Python, negative `n` counting from the end. */
  function SliceLength(len: nat, n: int): (k: nat)
    ensures k <= len
    ensures n >= 0 ==> k == if n < len then n else len
    ensures n < 0 ==> k == if len + n > 0 then len + n else 0
  {
    if n >= 0 then (if n < len then n else len)
    else if len + n > 0 then len + n else 0
  }

  /** `xs[0:n]` when `n` is an int; the whole list otherwise. */
  function Truncate<T>(xs: seq<T>, n: Option<int>): (r: seq<T>)
    ensures |r| <= |xs| && r == xs[..|r|]
    ensures n.None? ==> r == xs
    ensures n.Some? ==> |r| == SliceLength(|xs|, n.value)
  {
    match n
    case None => xs
    case Some(k) => xs[..SliceLength(|xs|, k)]
  }

  /** The ranking `get_top_matches` returns for a row. */
  function Ranked<K(==)>(row: seq<(K, real)>, n: Option<int>): seq<(K, real)>
  {
    Truncate(SortDesc(row), n)
  }

  /** The first `k` of the ranking are `min(k, |row|)` items of the row, in
      non-increasing order, and no item left out scores higher than one kept. */
  lemma TopK<K>(row: seq<(K, real)>, k: nat)
    ensures var top := Ranked(row, Some(k));
      && |top| == (if k < |row| then k else |row|)
      && SortedDesc(top)
      && (forall p :: p in top ==> p in row)
      && (forall p, q :: p in row && p !in top && q in top ==> p.1 <= q.1)
  {
    var srt := SortDesc(row);
    var top := Ranked(row, Some(k));
    assert forall i :: 0 <= i < |top| ==> top[i] == srt[i];
    forall p | p in top ensures p in row {
      var i :| 0 <= i < |top| && top[i] == p;
      InMultiset(srt, row, i);
    }
    forall p, q | p in row && p !in top && q in top ensures p.1 <= q.1 {
      var i := Position(row, srt, p);
      var j :| 0 <= j < |top| && top[j] == q;
    }
  }

  /** An item of `xs` is an item of every permutation of `xs`. */
  lemma InMultiset<T>(xs: seq<T>, ys: seq<T>, i: nat)
    requires multiset(xs) == multiset(ys) && i < |xs|
    ensures xs[i] in ys
  {
    assert xs[i] in multiset(xs);
  }

  /** Where an item of `xs` sits in a permutation `ys`. */
  lemma Position<T>(xs: seq<T>, ys: seq<T>, p: T) returns (i: nat)
    requires multiset(xs) == multiset(ys) && p in xs
    ensures i < |ys| && ys[i] == p
  {
    assert p in multiset(xs);
    assert p in multiset(ys);
    i :| 0 <= i < |ys| && ys[i] == p;
  }

  /** The items scoring like `xs[b]` start at `b` when none before it does. */
  lemma {:induction false} WithScoreFirst<K>(xs: seq<(K, real)>, b: nat)
    requires b < |xs|
    requires forall j :: 0 <= j < b ==> xs[j].1 != xs[b].1
    ensures WithScore(xs, xs[b].1) == [xs[b]] + WithScore(xs[b + 1..], xs[b].1)
  {
    var v := xs[b].1;
    var t := xs[1..];
    if b > 0 {
      assert t[b - 1] == xs[b];
      assert forall j :: 0 <= j < b - 1 ==> t[j] == xs[j + 1];
      WithScoreFirst(t, b - 1);
      assert t[b..] == xs[b + 1..];
      assert xs[0].1 != v;
      assert WithScore(xs, v) == WithScore(t, v);
    } else {
      assert WithScore(xs, v) == [xs[0]] + WithScore(t, v);
    }
  }

  lemma ScoresFirst<K>(row: seq<(K, real)>)
    requires |row| > 0
    ensures var b := ArgMax(Scores(row));
      && (forall j :: 0 <= j < b ==> row[j].1 != row[b].1)
      && (forall j :: 0 <= j < |row| ==> row[j].1 <= row[b].1)
  {
    var b := ArgMax(Scores(row));
    assert forall j :: 0 <= j < |row| ==> Scores(row)[j] == row[j].1;
  }

  /** The ranking starts with a highest score of the row. */
  lemma HeadScore<K>(row: seq<(K, real)>)
    requires |row| > 0
    ensures SortDesc(row)[0].1 == row[ArgMax(Scores(row))].1
  {
    var srt := SortDesc(row);
    var b := ArgMax(Scores(row));
    ScoresFirst(row);
    var i := Position(row, srt, row[b]);
    if i > 0 {
      assert srt[0].1 >= srt[i].1;
    }
    InMultiset(srt, row, 0);
    var j :| 0 <= j < |row| && row[j] == srt[0];
  }

  /** The head of the ranking is the first item of the row with the highest
      score: ties go to the item that comes first in iteration order. */
  lemma SortedHead<K>(row: seq<(K, real)>)
    requires |row| > 0
    ensures SortDesc(row)[0] == row[ArgMax(Scores(row))]
  {
    var srt := SortDesc(row);
    var b := ArgMax(Scores(row));
    var m := row[b].1;
    HeadScore(row);
    ScoresFirst(row);
    WithScoreFirst(row, b);
    var ws := WithScore(srt, m);
    assert ws == WithScore(row, m);
    HeadWithScore(srt, m);
    assert ws[0] == row[b];
  }

  lemma HeadWithScore<K>(xs: seq<(K, real)>, s: real)
    requires |xs| > 0 && xs[0].1 == s
    ensures |WithScore(xs, s)| > 0 && WithScore(xs, s)[0] == xs[0]
  {
  }

  /** The row without its item at `b`. */
  function Without<T>(xs: seq<T>, b: nat): (r: seq<T>)
    requires b < |xs|
    ensures |r| == |xs| - 1
    ensures forall i :: 0 <= i < |r| ==> r[i] == xs[if i < b then i else i + 1]
    ensures multiset(xs) == multiset{xs[b]} + multiset(r)
  {
    assert xs == xs[..b] + [xs[b]] + xs[b + 1..];
    xs[..b] + xs[b + 1..]
  }

  /** The ranking after its head holds the other items of the row. */
  lemma SortedTail<K>(row: seq<(K, real)>)
    requires |row| > 0
    ensures multiset(SortDesc(row)[1..]) == multiset(Without(row, ArgMax(Scores(row))))
  {
    var srt := SortDesc(row);
    var b := ArgMax(Scores(row));
    var h := srt[0];
    SortedHead(row);
    assert h == row[b];
    assert srt == [h] + srt[1..];
    assert multiset(srt) == multiset{h} + multiset(srt[1..]);
    assert multiset(row) == multiset{h} + multiset(Without(row, b));
    Cancel(multiset{h}, multiset(srt[1..]), multiset(Without(row, b)));
  }

  lemma Cancel<T>(a: multiset<T>, x: multiset<T>, y: multiset<T>)
    requires a + x == a + y
    ensures x == y
  {
    assert forall e :: x[e] == (a + x)[e] - a[e];
  }

  /** The runner-up of the ranking scores as much as every item of the row
      other than the head, and is one of them. */
  lemma SortedRunnerUp<K>(row: seq<(K, real)>)
    requires |row| >= 2
    ensures var srt := SortDesc(row); var b := ArgMax(Scores(row));
      && (forall j :: 0 <= j < |row| && j != b ==> row[j].1 <= srt[1].1)
      && (exists j :: 0 <= j < |row| && j != b && row[j] == srt[1])
  {
    RunnerUpBound(row);
    RunnerUpFrom(row);
  }

  lemma RunnerUpBound<K>(row: seq<(K, real)>)
    requires |row| >= 2
    ensures var srt := SortDesc(row); var b := ArgMax(Scores(row));
      forall j :: 0 <= j < |row| && j != b ==> row[j].1 <= srt[1].1
  {
    SortedTail(row);
    RunnerUpOf(row, SortDesc(row), ArgMax(Scores(row)));
  }

  lemma RunnerUpFrom<K>(row: seq<(K, real)>)
    requires |row| >= 2
    ensures var srt := SortDesc(row); var b := ArgMax(Scores(row));
      exists j :: 0 <= j < |row| && j != b && row[j] == srt[1]
  {
    SortedTail(row);
    RunnerUpOf(row, SortDesc(row), ArgMax(Scores(row)));
  }

  /** When the rest of a sorted list `srt` is a permutation of `row` without
      item `b`, the second of `srt` is one of those items and scores as much
      as each. */
  lemma RunnerUpOf<K>(row: seq<(K, real)>, srt: seq<(K, real)>, b: nat)
    requires b < |row| && |srt| == |row| >= 2 && SortedDesc(srt)
    requires multiset(srt[1..]) == multiset(Without(row, b))
    ensures forall j :: 0 <= j < |row| && j != b ==> row[j].1 <= srt[1].1
    ensures exists j :: 0 <= j < |row| && j != b && row[j] == srt[1]
  {
    var others := Without(row, b);
    SortedDescTail(srt);
    PermutedHead(srt[1..], others);
    forall j | 0 <= j < |row| && j != b ensures row[j].1 <= srt[1].1 {
      assert others[if j < b then j else j - 1] == row[j];
    }
    var i :| 0 <= i < |others| && others[i] == srt[1];
    var j := if i < b then i else i + 1;
    assert row[j] == others[i];
  }

  /** The head of a sorted permutation of `others` is one of them and scores
      at least as much as each. */
  lemma PermutedHead<K>(srt: seq<(K, real)>, others: seq<(K, real)>)
    requires multiset(srt) == multiset(others) && SortedDesc(srt) && |srt| > 0
    ensures srt[0] in others
    ensures forall i :: 0 <= i < |others| ==> others[i].1 <= srt[0].1
  {
    InMultiset(srt, others, 0);
    forall i | 0 <= i < |others| ensures others[i].1 <= srt[0].1 {
      var t := Position(others, srt, others[i]);
    }
  }

  /** `[k for k in d.keys() if d[k] == max(d.values())][0]`; `max` of an
      empty dict raises. */
  function BestKey<K(==)>(row: seq<(K, real)>): (r: Option<K>)
    ensures r.Some? <==> |row| > 0
    ensures r.Some? ==> r.value == row[ArgMax(Scores(row))].0
  {
    if row == [] then None
    else
      var b := ArgMax(Scores(row));
      var top := WithScore(row, row[b].1);
      ScoresFirst(row);
      WithScoreFirst(row, b);
      Some(top[0].0)
  }

  /** The best key is that of the first item with the highest score, which is
      the head of the ranking. */
  lemma BestKeyIsHead<K>(row: seq<(K, real)>)
    requires |row| > 0
    ensures BestKey(row) == Some(row[ArgMax(Scores(row))].0)
    ensures BestKey(row) == Some(SortDesc(row)[0].0)
  {
    ScoresFirst(row);
    WithScoreFirst(row, ArgMax(Scores(row)));
    SortedHead(row);
  }
}

=== FILE: scan.dfy ===
/** The move to the next unmapped component after a mapping is added
    (`add_mapped_network`) or the analysis is run (`run_analysis`): the scan
    over the component list, and the choice of the template shown next to the
    component it lands on. */
module Scan {
  import opened Wrappers
  import opened Assoc
  import opened Vectors
  import opened Ranking
  import opened Mapper
  import opened Mappings

  /** `mapped_keys`: the mapped components whose template is not shared with
      another mapping. */
  function MappedKeys(g: Gui): seq<Name>
  {
    Unflagged(Keys(g.mapped), Keys(g.icaToRsnDuplicates))
  }

  function Unflagged(ks: seq<Name>, flagged: seq<Name>): (r: seq<Name>)
    ensures forall k :: k in r <==> k in ks && k !in flagged
  {
    if ks == [] then []
    else (if ks[0] !in flagged then [ks[0]] else []) + Unflagged(ks[1..], flagged)
  }

  /** With exact flags, the scan skips a component exactly when it is mapped
      onto a template no other mapping uses (or onto noise). */
  lemma MappedKeysMeaning(g: Gui, k: Name)
    requires FlagsExact(g)
    ensures k in MappedKeys(g) <==> Get(g.mapped, k).Some? && DuplicateFlag(g.mapped, Get(g.mapped, k).value.rsnCustomName).None?
  {
    assert Get(g.icaToRsnDuplicates, k) == IcaFlag(g.mapped, k);
  }

  /** `listWidget.item(row).data(UserRole)`: the label of a row; `item`
      returns `None` outside the list and the call on it raises. */
  function Label(labels: seq<Name>, row: int): (r: Result<Name, GuiError>)
    ensures r.Success? <==> 0 <= row < |labels|
    ensures r.Success? ==> r.value == labels[row]
  {
    if 0 <= row < |labels| then Success(labels[row]) else Failure(NoItem(row))
  }

  /** Python's `a % b`: the remainder has the sign of the divisor, and a zero
      divisor raises. */
  function PyMod(a: int, b: int): (r: Result<int, GuiError>)
    ensures r.Success? <==> b != 0
    ensures b > 0 ==> r == Success(a % b)
    ensures b < 0 ==> b < r.value <= 0
  {
    if b == 0 then Failure(ZeroDivision)
    else if b > 0 || a % b == 0 then Success(a % b)
    else Success(a % b + b)
  }

  /** `while (i <= ind_max) and label(i) in mapped_keys: i += 1`; the first
      loop of the scan, written with `break`, does the same. */
  function Skip(labels: seq<Name>, mk: seq<Name>, i: int): (r: Result<int, GuiError>)
    ensures r.Failure? <==> i < 0
    ensures r.Success? ==> i <= r.value && (r.value <= |labels| || r.value == i)
    ensures r.Success? ==> forall j :: i <= j < r.value && j < |labels| ==> labels[j] in mk
    ensures r.Success? && r.value < |labels| ==> labels[r.value] !in mk
    ensures r.Success? && i <= |labels| ==> r.value == |labels| || labels[r.value] !in mk
    decreases |labels| - i
  {
    if i > |labels| - 1 then Success(i)
    else
      var l :- Label(labels, i);
      if l in mk then Skip(labels, mk, i + 1) else Success(i)
  }

  /** Where the scan leaves the list: on row `index`, or back on row 0. */
  datatype Landing = Row(index: nat) | FirstRow

  /** `if (i <= ind_max) and label(i) not in mapped_keys: setCurrentRow(i)`,
      otherwise `setCurrentRow(0)`. */
  function Land(labels: seq<Name>, mk: seq<Name>, i: int): (r: Result<Landing, GuiError>)
    ensures r.Success? <==> i >= 0 || i > |labels| - 1
    ensures r.Success? && r.value.Row? ==> r.value.index == i < |labels| && labels[i] !in mk
    ensures r.Success? && r.value.FirstRow? ==> i >= |labels| || labels[i] in mk
  {
    if i <= |labels| - 1 then
      var l :- Label(labels, i);
      Success(if l !in mk then Row(i) else FirstRow)
    else Success(FirstRow)
  }

  /** The scan as written: from the current row `start` (`-1` when no row is
      current) over the mapped components; on running off the end it
      restarts at `(ind_max + 1) % ind_max - 1`. */
  function NextUnmappedAsWritten(labels: seq<Name>, mk: seq<Name>, start: int): (r: Result<Landing, GuiError>)
    requires -1 <= start < |labels|
    ensures start < 0 ==> r.Failure?
    ensures r.Success? && r.value.Row? ==> r.value.index < |labels| && labels[r.value.index] !in mk
  {
    var indMax := |labels| - 1;
    var i :- Skip(labels, mk, start);
    if i > indMax then
      var w :- PyMod(i, indMax);
      var j :- Skip(labels, mk, w - 1);
      Land(labels, mk, j)
    else Land(labels, mk, i)
  }

  /** The scan restarting at row 0, as the restart evidently intends. */
  function NextUnmapped(labels: seq<Name>, mk: seq<Name>, start: int): (r: Result<Landing, GuiError>)
    requires -1 <= start < |labels|
    ensures r.Success? <==> start >= 0
    ensures r.Success? && r.value.Row? ==> r.value.index < |labels| && labels[r.value.index] !in mk
    ensures r.Success? && r.value.Row? && r.value.index >= start ==>
      forall j :: start <= j < r.value.index ==> labels[j] in mk
    ensures r.Success? && r.value.Row? && r.value.index < start ==>
      (forall j :: start <= j < |labels| ==> labels[j] in mk) && (forall j :: 0 <= j < r.value.index ==> labels[j] in mk)
    ensures r.Success? ==> (r.value.FirstRow? <==> forall j :: 0 <= j < |labels| ==> labels[j] in mk)
  {
    var indMax := |labels| - 1;
    var i :- Skip(labels, mk, start);
    if i > indMax then
      Land(labels, mk, Skip(labels, mk, 0).value)
    else Land(labels, mk, i)
  }

  /** From the third row on, `(ind_max + 1) % ind_max - 1` is 0. */
  lemma WrapIndex(n: int)
    requires n >= 3
    ensures PyMod(n, n - 1) == Success(1)
  {
    var q := n / (n - 1);
    var rem := n % (n - 1);
    assert n == q * (n - 1) + rem && 0 <= rem < n - 1;
  }

  /** The scan as written is the intended one on lists of three or more
      rows, and on any list when it does not run off the end. */
  lemma AsWrittenAgrees(labels: seq<Name>, mk: seq<Name>, start: int)
    requires -1 <= start < |labels|
    ensures |labels| >= 3 ==> NextUnmappedAsWritten(labels, mk, start) == NextUnmapped(labels, mk, start)
    ensures (exists j :: 0 <= j < |labels| && start <= j && labels[j] !in mk) ==>
      NextUnmappedAsWritten(labels, mk, start) == NextUnmapped(labels, mk, start)
  {
    if |labels| >= 3 {
      WrapIndex(|labels|);
    }
  }

  /** On a list of one or two rows, once the scan runs off the end the
      restart divides by zero (one row) or reads row -1 (two rows), where the
      intended scan lands on a row. */
  lemma AsWrittenFailsOnShortLists(labels: seq<Name>, mk: seq<Name>, start: int)
    requires 1 <= |labels| <= 2 && 0 <= start < |labels|
    requires forall j :: start <= j < |labels| ==> labels[j] in mk
    ensures NextUnmappedAsWritten(labels, mk, start).Failure?
    ensures NextUnmapped(labels, mk, start).Success?
  {
    if |labels| == 2 {
      assert PyMod(2, 1) == Success(0);
    }
  }

  /** The two short-list failures on concrete lists. */
  lemma AsWrittenFailsExamples()
    ensures NextUnmappedAsWritten(["a"], ["a"], 0) == Failure(ZeroDivision)
    ensures NextUnmapped(["a"], ["a"], 0) == Success(FirstRow)
    ensures NextUnmappedAsWritten(["a", "b"], ["b"], 1) == Failure(NoItem(-1))
    ensures NextUnmapped(["a", "b"], ["b"], 1) == Success(Row(0))
  {
    assert PyMod(2, 1) == Success(0);
    assert "a" !in ["b"];
  }

  /** `[k for k in top3[ica].keys() if top3[ica][k] == max(top3[ica].values())][0]`:
      the template shown next to the component landed on. A missing entry
      raises `KeyError`; an empty one leaves the comprehension empty without
      calling `max()`, and `[0]` raises `IndexError`. */
  function PickRsn(top3: Dict<Name, Row>, ica: Name): (r: Result<Name, GuiError>)
    ensures r.Success? <==> Get(top3, ica).Some? && |Get(top3, ica).value| > 0
    ensures r.Success? ==> r.value in Keys(Get(top3, ica).value)
    ensures Get(top3, ica).None? ==> r == Failure(KeyMissing(ica))
    ensures Get(top3, ica).Some? && |Get(top3, ica).value| == 0 ==> r == Failure(NoFirst)
  {
    match Get(top3, ica)
    case None => Failure(KeyMissing(ica))
    case Some(row) =>
      match BestKey(row)
      case None => Failure(NoFirst)
      case Some(k) =>
        BestKeyIsHead(row);
        var b := ArgMax(Scores(row));
        assert Keys(row)[b] == k;
        Success(k)
  }

  /** The first entry of a list sorted by descending score is its first
      highest score. */
  lemma SortedArgMax<K>(xs: seq<(K, real)>)
    requires |xs| > 0 && SortedDesc(xs)
    ensures ArgMax(Scores(xs)) == 0
  {
    var k := ArgMax(Scores(xs));
    assert Scores(xs)[0] == xs[0].1 && Scores(xs)[k] == xs[k].1;
  }

  /** For the top three the engine computed, the template picked is the
      component's best match: the first template with its highest
      correlation. */
  lemma PickIsBestMatch(table: Table, names: seq<Name>, ica: Name)
    requires FindTop3(table, names).Success? && ica in names
    requires Get(table, ica).Some? && UniqueKeys(Get(table, ica).value) && |Get(table, ica).value| > 0
    ensures var row := Get(table, ica).value;
      PickRsn(FindTop3(table, names).value, ica) == Success(row[ArgMax(Scores(row))].0)
  {
    var row := Get(table, ica).value;
    var i :| 0 <= i < |names| && names[i] == ica;
    var top := Ranked(row, Some(3));
    Top3Entry(row);
    assert Get(FindTop3(table, names).value, ica) == Some(top);
    BestKeyIsHead(top);
    SortedArgMax(top);
    SortedHead(row);
    assert top[0] == SortDesc(row)[0];
  }

  /** Where the GUI goes after the scan: the component row and its best
      template, or back to row 0. */
  datatype Focus = Select(row: nat, rsn: Name) | Reset

  /** The end of `add_mapped_network()` and of `run_analysis()`, with the scan
      restarting at row 0. */
  function NextFocus(g: Gui, labels: seq<Name>, top3: Dict<Name, Row>, start: int): (r: Result<Focus, GuiError>)
    requires -1 <= start < |labels|
    ensures r.Success? && r.value.Select? ==>
      && r.value.row < |labels|
      && labels[r.value.row] !in MappedKeys(g)
      && Get(top3, labels[r.value.row]).Some?
      && r.value.rsn in Keys(Get(top3, labels[r.value.row]).value)
    ensures r.Success? && r.value.Reset? ==> forall j :: 0 <= j < |labels| ==> labels[j] in MappedKeys(g)
    ensures start >= 0 && (forall j :: 0 <= j < |labels| ==> labels[j] in MappedKeys(g)) ==> r == Success(Reset)
  {
    var landing :- NextUnmapped(labels, MappedKeys(g), start);
    match landing
    case FirstRow => Success(Reset)
    case Row(k) =>
      var rsn :- PickRsn(top3, labels[k]);
      Success(Select(k, rsn))
  }
}

=== FILE: vectors.dfy ===
/** Flattened voxel vectors (`numpy` 1-D float arrays) and the reductions the
    matching engine applies to them, over exact reals. */
module Vectors {

  function Sum(xs: seq<real>): real
  {
    if xs == [] then 0.0 else xs[0] + Sum(xs[1..])
  }

  /** `xs[xs.nonzero()]`: the nonzero entries, in order. */
  function NonZeros(xs: seq<real>): (nz: seq<real>)
    ensures |nz| <= |xs|
  {
    if xs == [] then []
    else (if xs[0] != 0.0 then [xs[0]] else []) + NonZeros(xs[1..])
  }

  /** Dropping the zero entries does not change the sum. */
  lemma {:induction false} SumNonZeros(xs: seq<real>)
    ensures Sum(NonZeros(xs)) == Sum(xs)
  {
    if xs != [] {
      SumNonZeros(xs[1..]);
      var rest := NonZeros(xs[1..]);
      if xs[0] != 0.0 {
        assert NonZeros(xs) == [xs[0]] + rest;
        assert ([xs[0]] + rest)[1..] == rest;
      } else {
        assert NonZeros(xs) == rest;
      }
    }
  }

  function Mean(xs: seq<real>): real
    requires |xs| > 0
  {
    Sum(xs) / (|xs| as real)
  }

  /** Subtract `m` from every nonzero entry. */
  function Shift(xs: seq<real>, m: real): (r: seq<real>)
    ensures |r| == |xs|
  {
    seq(|xs|, i requires 0 <= i < |xs| => if xs[i] != 0.0 then xs[i] - m else xs[i])
  }

  /** `m` once for every nonzero entry of `xs`. */
  function Offset(xs: seq<real>, m: real): real
  {
    if xs == [] then 0.0 else (if xs[0] != 0.0 then m else 0.0) + Offset(xs[1..], m)
  }

  lemma {:induction false} SumShift(xs: seq<real>, m: real)
    ensures Sum(Shift(xs, m)) == Sum(xs) - Offset(xs, m)
  {
    if xs != [] {
      SumShift(xs[1..], m);
      assert Shift(xs, m)[1..] == Shift(xs[1..], m);
    }
  }

  /** The number of nonzero entries, as a real. */
  function CountNonZero(xs: seq<real>): real
  {
    if xs == [] then 0.0 else (if xs[0] != 0.0 then 1.0 else 0.0) + CountNonZero(xs[1..])
  }

  lemma {:induction false} CountNonZeroIsLength(xs: seq<real>)
    ensures CountNonZero(xs) == |NonZeros(xs)| as real
  {
    if xs != [] {
      CountNonZeroIsLength(xs[1..]);
      if xs[0] != 0.0 {
        assert NonZeros(xs) == [xs[0]] + NonZeros(xs[1..]);
      } else {
        assert NonZeros(xs) == NonZeros(xs[1..]);
      }
    }
  }

  lemma {:induction false} OffsetCount(xs: seq<real>, m: real)
    ensures Offset(xs, m) == m * CountNonZero(xs)
  {
    if xs != [] {
      OffsetCount(xs[1..], m);
      if xs[0] != 0.0 {
        MulSucc(m, CountNonZero(xs[1..]));
      }
    }
  }

  lemma MulSucc(m: real, c: real)
    ensures m * (c + 1.0) == m * c + m
  {
  }

  lemma MeanTimesCount(xs: seq<real>)
    requires |xs| > 0
    ensures Mean(xs) * (|xs| as real) == Sum(xs)
  {
  }

  /** Shifting the nonzero entries by their mean leaves a zero sum. */
  lemma ShiftByMeanSum(xs: seq<real>)
    requires |NonZeros(xs)| > 0
    ensures Sum(Shift(xs, Mean(NonZeros(xs)))) == 0.0
  {
    var m := Mean(NonZeros(xs));
    SumShift(xs, m);
    OffsetCount(xs, m);
    CountNonZeroIsLength(xs);
    MeanTimesCount(NonZeros(xs));
    SumNonZeros(xs);
  }

  /** `(a * b)`, element-wise. */
  function Product(a: seq<real>, b: seq<real>): (p: seq<real>)
    requires |a| == |b|
    ensures |p| == |a|
  {
    seq(|a|, i requires 0 <= i < |a| => a[i] * b[i])
  }

  /** `numpy.argmax`: the position of the first occurrence of the largest entry. */
  function ArgMax(a: seq<real>): (k: nat)
    requires |a| > 0
    ensures k < |a|
    ensures forall j :: 0 <= j < |a| ==> a[j] <= a[k]
    ensures forall j :: 0 <= j < k ==> a[j] < a[k]
    decreases |a|
  {
    if |a| == 1 then 0
    else
      var k := ArgMax(a[..|a| - 1]);
      if a[|a| - 1] > a[k] then |a| - 1 else k
  }

  /** A strictly largest entry is the one `argmax` reports. */
  lemma ArgMaxUnique(a: seq<real>, k: nat)
    requires k < |a|
    requires forall j :: 0 <= j < |a| && j != k ==> a[j] < a[k]
    ensures ArgMax(a) == k
  {
  }
}

=== FILE: volumes.dfy ===
/** Image geometry: a 3-D voxel grid, row-major (C order) flattening as done by
    `ndarray.flatten()` and `numpy.unravel_index`, and the voxel-to-world
    affine applied by `nibabel.affines.apply_affine`. */
module Volumes {

  datatype Shape = Shape(nx: nat, ny: nat, nz: nat) {
    function Size(): nat
    {
      nx * ny * nz
    }
  }

  datatype Voxel = Voxel(i: nat, j: nat, k: nat)

  predicate InBounds(v: Voxel, s: Shape)
  {
    v.i < s.nx && v.j < s.ny && v.k < s.nz
  }

  /** The flat position of a voxel in C order: the last axis varies fastest. */
  function Ravel(v: Voxel, s: Shape): nat
  {
    (v.i * s.ny + v.j) * s.nz + v.k
  }

  /** One row `[a b c t]` of the upper 3x4 block of a 4x4 affine. */
  datatype AffineRow = AffineRow(a: real, b: real, c: real, t: real)

  datatype Affine = Affine(x: AffineRow, y: AffineRow, z: AffineRow)

  /** A point in world (scanner or MNI) coordinates. */
  datatype Point = Point(x: real, y: real, z: real)

  /** A single time point of a NIfTI image: its voxel values flattened in C
      order, the grid shape and the voxel-to-world affine. */
  datatype Volume = Volume(data: seq<real>, shape: Shape, affine: Affine) {
    /** The data array has exactly one value per voxel of the grid. */
    predicate Valid()
    {
      |data| == shape.Size()
    }
  }

  const Identity: Affine :=
    Affine(AffineRow(1.0, 0.0, 0.0, 0.0), AffineRow(0.0, 1.0, 0.0, 0.0), AffineRow(0.0, 0.0, 1.0, 0.0))

  function ApplyRow(r: AffineRow, v: Voxel): real
  {
    r.a * (v.i as real) + r.b * (v.j as real) + r.c * (v.k as real) + r.t
  }

  /** `apply_affine(affine, voxel)`: the linear 3x3 block applied to the voxel
      indices, plus the translation column. */
  function ApplyAffine(m: Affine, v: Voxel): (p: Point)
    ensures m == Identity ==> p == Point(v.i as real, v.j as real, v.k as real)
  {
    Point(ApplyRow(m.x, v), ApplyRow(m.y, v), ApplyRow(m.z, v))
  }

  lemma DivBelow(a: nat, b: nat, c: nat)
    requires a < b * c
    ensures c > 0 && b > 0 && a / c < b
  {
  }

  lemma DivModOf(a: nat, q: nat, r: nat, n: nat)
    requires n > 0 && r < n && a == q * n + r
    ensures a / n == q && a % n == r
  {
    var d := a / n - q;
    assert d * n == r - a % n;
    if d > 0 {
      MulAtLeast(d, n);
    } else if d < 0 {
      MulAtLeast(-d, n);
    }
  }

  lemma MulAtLeast(d: int, n: nat)
    requires d > 0
    ensures d * n >= n
  {
  }

  /** `numpy.unravel_index(idx, shape)` for a C-ordered 3-D grid. */
  function Unravel(idx: nat, s: Shape): (v: Voxel)
    requires idx < s.Size()
    ensures InBounds(v, s)
    ensures Ravel(v, s) == idx
  {
    DivBelow(idx, s.nx * s.ny, s.nz);
    var rest := idx / s.nz;
    DivBelow(rest, s.nx, s.ny);
    var v := Voxel(rest / s.ny, rest % s.ny, idx % s.nz);
    assert rest / s.ny * s.ny + rest % s.ny == rest;
    assert rest * s.nz + idx % s.nz == idx;
    v
  }

  /** Every in-bounds voxel has a flat position inside the array. */
  lemma RavelInBounds(v: Voxel, s: Shape)
    requires InBounds(v, s)
    ensures Ravel(v, s) < s.Size()
  {
    var row := v.i * s.ny + v.j;
    DigitBelow(v.i, s.nx, v.j, s.ny);
    DigitBelow(row, s.nx * s.ny, v.k, s.nz);
  }

  /** A two-digit number in a mixed radix stays below the product of the
      radices. */
  lemma DigitBelow(a: nat, n: nat, b: nat, m: nat)
    requires a < n && b < m
    ensures a * m + b < n * m
  {
    assert a * m <= (n - 1) * m by {
      MulMonotone(a, n - 1, m);
    }
    assert (n - 1) * m == n * m - m;
  }

  lemma MulMonotone(a: nat, c: nat, m: nat)
    requires a <= c
    ensures a * m <= c * m
  {
    assert c * m == a * m + (c - a) * m;
  }

  /** The value of a flattened volume at an in-bounds voxel. */
  function ValueAt(data: seq<real>, s: Shape, v: Voxel): real
    requires |data| == s.Size() && InBounds(v, s)
  {
    RavelInBounds(v, s);
    data[Ravel(v, s)]
  }

  /** Unravelling is the inverse of flattening on in-bounds voxels. */
  lemma UnravelRavel(v: Voxel, s: Shape)
    requires InBounds(v, s)
    ensures Ravel(v, s) < s.Size() && Unravel(Ravel(v, s), s) == v
  {
    RavelInBounds(v, s);
    var row := v.i * s.ny + v.j;
    DivModOf(Ravel(v, s), row, v.k, s.nz);
    DivModOf(row, v.i, v.j, s.ny);
  }
}

=== FILE: wrappers.dfy ===
/** Failure-carrying values used throughout the model: `Option` for Python's
    `None`-or-value and `Result` for an operation that can raise. */
module Wrappers {

  datatype Option<+T> = None | Some(value: T)

  datatype Result<+R, +E> = Success(value: R) | Failure(error: E) {
    predicate IsFailure() {
      Failure?
    }

    function PropagateFailure<U>(): Result<U, E>
      requires Failure?
    {
      Failure(error)
    }

    function Extract(): R
      requires Success?
    {
      value
    }
  }

  /** The error of the first failing result, if any. */
  function FirstFailure<T, E>(rs: seq<Result<T, E>>): (e: Option<E>)
    ensures e.None? <==> forall t :: 0 <= t < |rs| ==> rs[t].Success?
    ensures e.Some? ==> exists t :: 0 <= t < |rs| && rs[t] == Failure(e.value) && forall s :: 0 <= s < t ==> rs[s].Success?
  {
    if rs == [] then None
    else if rs[0].Failure? then Some(rs[0].error)
    else
      var e := FirstFailure(rs[1..]);
      assert forall t :: 0 < t < |rs| ==> rs[t] == rs[1..][t - 1];
      e
  }
}
